=== FILE: README.md ===
# ZRO/BNB/USDT wallet bot: price resolution, setup parsing, snapshot and schedule

A Dafny model of the decision and arithmetic core of `main.py`. The bot is a
Telegram bot that values a small fixed portfolio (ZRO, BNB, USDT and a
placebo `fZRO` holding priced as ZRO) in USD. Five pieces are modelled:

- **Price cache** (`_cache_read`, `_cache_write`): a single slot holding a
  timestamp and a price map, usable for 180 seconds (`PriceCache`).
- **Price resolution** (`fetch_prices`): Binance's four requests, all or
  nothing; then CoinGecko with up to four attempts and backoffs 0.5, 1.2,
  2.5 and 5.0 seconds; then the cache (`PriceResolver`). Every network
  reply is an input value. The result records the outcome, the delays
  slept, the number of CoinGecko requests and the cache write.
  `FetchPrices` is the loop as written. `Resolve` is a loop-free
  reference, and the method is proved equal to it.
- **Setup parsing** (`parse_setup`): lines, stripping, lower/upper case,
  `split()`, `split(':')`, commas read as decimal points, and the last line
  wins (`SetupParser`). The module builds on `PyText`, which models Python's
  `str` methods, and takes `float()` and `int()` as partial function
  parameters.
- **Snapshot arithmetic** (`compute_snapshot` after the profile and prices
  are in hand): the four rows in order ZRO, BNB, USDT, ZRO; each row's
  change from its baseline (`pct`); the total of the rounded row values;
  and the value-weighted total change (`Snapshot`). `round(x, 2)` is
  `PyRound.Round2`, an exact half-to-even rounding on `real`.
- **Schedule table** (`schedule_user_job`): the jobs by id `user-<id>`,
  with the old job removed before the new one is added. Also modelled:
  what the scheduled job delivers when it fires (`Scheduler`).

Supporting modules: `Options` (an `Option` datatype), `Assets` (quotes,
price sets, source tags, outcomes) and `PyInt` (decimal printing of an
`int`, for job ids).

Four behaviours of the code are easy to misread, so here they are stated plainly:

- USDT's price is pinned to 1.0 only on the Binance path. CoinGecko and
  the cache report USDT's own price (`PriceResolver.ChangeByPath`).
- Every CoinGecko status of 400 or more is retried, not only 429 and 5xx:
  `raise_for_status` raises the same `ClientResponseError`
  (`PriceResolver.Classify`).
- A scheduled firing that cannot get prices delivers nothing. The
  exception from `fetch_prices` escapes the job (`Scheduler.FiringOutcome`).
- Holdings ZRO 10 and BNB 1, baselines 1.0 and 500.0, and prices 1.5 and
  600.0 give a total change of `round(12750/615, 2)`, which is 20.73
  (`Snapshot.WorkedExample`).

## Model

| member | source | states |
|---|---|---|
| PriceCache.Read | main.py:137-146 | a read yields prices exactly when an entry exists and `now - ts <= 180` (inclusive, so a future timestamp counts as fresh), and then yields the stored prices unchanged |
| PriceCache.Write | main.py:148-152 | a successful write replaces the whole entry with the prices stamped `now`; a failure is swallowed, leaving the previous entry when it came before the file was opened and an undecodable, hence empty, slot when it came after `write_text` truncated the file |
| PriceCache.FailedWriteServesNothingNew | main.py:137-152 | after a failed write a read yields nothing or what it would have yielded before the write, never new prices |
| PriceCache.ReadAfterWrite | main.py:48 | a read within 180 seconds of a write returns exactly the written prices, whatever was cached before |
| PriceCache.StaleAfterTtl | main.py:48 | a read more than 180 seconds after a write returns nothing |
| PriceCache.LastWriterWins | main.py:148-152 | two writes leave only the second; the slot keeps no per-symbol state |
| PriceResolver.Classify | main.py:192-205 | a reply below status 400 with prices for all three ids is a quote; any status of 400 or more, and a body whose content type is not JSON, is a response error (retried); no reply, a body that fails to decode under a JSON content type, or a body missing a price, is another error (not retried) |
| PriceResolver.FetchPrices | main.py:156-235 | the retry loop, run with its invariants, ends in exactly the result of the loop-free reference `Resolve`; the tail after the loop is unreachable |
| PriceResolver.SettledIs | main.py:191-216 | the attempt that ends the retry loop is the first that is not a response error, or the last attempt |
| PriceResolver.BinanceAllOrNothing | main.py:167-185 | when any Binance reply fails, the other replies do not affect the result |
| PriceResolver.BinanceSuccess | main.py:173-183 | four good Binance replies give the Binance tag, 24h changes for ZRO and BNB, USDT pinned at 1.0 with 0.0 change, no CoinGecko request, no sleep, and a cache write of the three prices |
| PriceResolver.RetryIsBounded | main.py:190-208 | at most four CoinGecko requests, one more than the delays slept; the delays are a prefix of the backoff table and never include 5.0 |
| PriceResolver.EveryAttemptRejected | main.py:194-216 | four response errors make four requests, sleep 0.5, 1.2 and 2.5, and leave the result to the cache, with no cache write |
| PriceResolver.OtherErrorIsNotRetried | main.py:217-225 | another exception at attempt k ends the loop there: k+1 requests, the first k delays, and the cache decides |
| PriceResolver.SourceOrder | main.py:166-235 | Binance exactly when all four replies are good; CoinGecko exactly when Binance failed and CoinGecko answered in budget; the cache exactly when both failed and the cache is fresh and complete; failure exactly otherwise |
| PriceResolver.AnswerSettles | main.py:191-204 | when some attempt answers after only response errors, that attempt is the one that ends the loop |
| PriceResolver.ChangeByPath | main.py:177-223 | USDT's 24h change is always 0.0; ZRO and BNB have a 24h change exactly on the Binance path; Binance pins USDT at 1.0, while CoinGecko reports the three prices of the reply that ended the retry loop and the cache reports the three cached prices |
| PriceResolver.FromCache | main.py:209-216 | the cache path succeeds exactly when the read yields a map holding ZRO, BNB and USDT, and then reports those three prices with the cache tag and no 24h change for ZRO and BNB; otherwise the call fails |
| PriceResolver.Settled | main.py:191-208 | the attempt the retry loop stops at: every attempt before it is a response error, and it is one only if it is the last |
| PriceResolver.Resolve | main.py:166-235 | no CoinGecko request exactly when all four Binance replies are numbers; otherwise every request before the last met a response error, and the delays slept are the backoffs of those requests; the cache is written exactly when fresh prices came from Binance or CoinGecko |
| PriceResolver.CacheReplaysFetch | main.py:182 | the cache is written exactly when fresh prices came from Binance or CoinGecko, and a read within the TTL replays those prices with the cache tag |
| SetupParser.ParseSetup | main.py:371-404 | a body with no line that sets a time yields no schedule (the amounts and the schedule are pinned down by the lemmas below) |
| SetupParser.KeysIgnoreCase | main.py:396 | a key, its lower-case and its upper-case spelling name the same slot |
| SetupParser.PlaceboKey | main.py:401-402 | `fZRO`, `fzro` and `FZRO` all name the placebo slot |
| SetupParser.LineEffect | main.py:383-402 | a blank line does nothing; a time line never sets an amount, and it sets the time exactly when its rest splits at ':' into two `int`-parsable parts; any other line sets an amount exactly when its first token names a slot and its second token (commas read as points) parses |
| SetupParser.Run | main.py:381-393 | hour and minute are set only together, so they are both set or both unset; with no time line they keep their start |
| SetupParser.LaterLinesOverride | main.py:380-402 | each amount is the one set by the last line naming its slot, and 0.0 when no line names it |
| SetupParser.LastTimeLineWins | main.py:381-403 | the schedule is the time of the last time line whose parts both parse, and none without such a line |
| SetupParser.ScheduleFromTimeLine | main.py:387-390 | a schedule comes only from a time line of the body whose two parts `int` reads as the hour and minute, with no range check |
| SetupParser.DefaultsWhenNothingParses | main.py:380-403 | a body none of whose lines sets anything yields all amounts 0.0 and no schedule |
| PyText.SplitLinesKeepText | main.py:382 | the lines `splitlines()` yields are the text without its line breaks |
| PyText.WordsAreWords | main.py:394 | every token `split()` yields is non-empty and free of white space |
| PyText.WordsKeepNonSpace | main.py:394 | the tokens of `split()`, glued back together, are exactly the non-space characters of the line |
| PyText.LineCutIsSplitLines | main.py:382 | any cut of the text into lines, each ended by a boundary (`\r\n` or one line-break character) and the last possibly unended, is the one `splitlines()` yields |
| PyText.SplitLinesCut | main.py:382 | the lines of `splitlines()`, each followed by its boundary, rebuild the text |
| PyText.WordCutIsWords | main.py:394 | any cut of a line into words separated by non-empty runs of white space, with optional white space at each end, is the one `split()` yields |
| PyText.WordsCut | main.py:394 | the tokens of `split()` come from such a cut: the line is the tokens interleaved with runs of white space, non-empty between tokens |
| PyText.SplitOnJoin | main.py:389 | joining the pieces of `split(':')` with ':' gives back the string |
| PyText.SplitOnCount | main.py:389 | `split(':')` yields one more piece than there are colons, so two pieces means exactly one colon |
| PyText.StripIdempotent | main.py:383 | stripping a stripped line changes nothing |
| PyText.UpperForgetsCase | main.py:396 | upper-casing the lower-cased or upper-cased key gives the same as upper-casing the key |
| PyRound.Round2 | main.py:422 | `round(x, 2)` is a whole number of cents within half a cent of `x`, and the even number of cents when `x` lies exactly halfway |
| PyRound.Round2Unique | main.py:422 | those properties determine the result: any whole number of cents within half a cent of `x`, even on a tie, is `round(x, 2)` |
| PyRound.Round2Keeps | main.py:436 | a whole number of cents is left as it is |
| PyRound.Round2Monotone | main.py:452 | rounding never reverses an order |
| Snapshot.Pct | main.py:419-422 | 0.0 when the baseline is missing or zero; otherwise a whole number of cents within half a cent of the exact change in percent |
| Snapshot.Entries | main.py:426-431 | four entries in order ZRO, BNB, USDT, ZRO with the profile's amounts; the fourth reuses ZRO's price, change and 24h change with the placebo amount; each change is `pct` of its price and baseline |
| Snapshot.PctSign | main.py:419-422 | with a positive baseline, the change is non-negative when the price rose and non-positive when it fell |
| Snapshot.PctWithoutBaseline | main.py:420-421 | a missing or zero baseline gives change 0.0 |
| Snapshot.RowOf | main.py:435-446 | the row keeps the entry's symbol, amount, price and change; its value is a whole number of cents within half a cent of amount times price; it has a 24h change exactly when the entry does, and that change is a whole number of cents within half a cent of the entry's |
| Snapshot.Rows | main.py:434-446 | one row per entry, in order, each the entry's row |
| Snapshot.Shares | main.py:435-438 | one pair per entry: its unrounded value and its change |
| Snapshot.BuildRows | main.py:432-446 | the loop builds exactly the rows, the total of the rounded values and the weighted pairs |
| Snapshot.SumParts | main.py:452 | the loop's sum is the value-weighted change over the given total |
| Snapshot.WeightedStep | main.py:452 | the weighted sum grows by one pair's share per step |
| Snapshot.TotalPct | main.py:450-452 | 0.0 unless the total is positive; otherwise the sum of value times change divided by the total, rounded to cents by `round(x, 2)` |
| Snapshot.SnapshotOf | main.py:406-454 | no profile gives the setup reply; a profile with a failed fetch raises; otherwise four rows tagged with the fetch's source |
| Snapshot.ComputeSnapshot | main.py:406-454 | the loop-based computation equals the reference snapshot |
| Snapshot.RoundedTotalOfFour | main.py:437 | the total is the sum of the four rounded row values |
| Snapshot.TotalOfFourRows | main.py:432-452 | the total is the sum of the four rounded values, and a total of 0 or less gives a total change of 0.0 |
| Snapshot.RowValues | main.py:435-446 | every row's value is its amount times price rounded to cents, with the entry's symbol, amount, price and change |
| Snapshot.WeightedIsRatio | main.py:452 | the weighted change is the sum of value times change divided by the total |
| Snapshot.ValueTimesChangeBetween | main.py:452 | with non-negative values and all changes between lo and hi, the sum of value times change is between lo and hi times the sum of values |
| Snapshot.UniformChangeIsPreserved | main.py:452 | when every row moved by the same c percent, the weighted change taken over the exact, unrounded sum of the values is c (the code divides by the sum of the rounded values, so its ratio can differ from c by that rounding) |
| Snapshot.ValueTimesChangeOfFour | main.py:438 | the sum over the four pairs, spelled out |
| Snapshot.WorkedExample | main.py:419-454 | for the profile with holdings ZRO 10 and BNB 1 and baselines 1.0 and 500.0, and prices 1.5 and 600.0: changes 50.0 and 20.0, total 615.0, total change 20.73 |
| Scheduler.JobId | main.py:461 | the id is `user-` followed by the user's number: a '-' right after the prefix exactly when the user id is negative, then decimal digits, without a leading zero, that read back as the user id's absolute value |
| PyInt.IntToStr | main.py:461 | `str(n)` of a non-negative `n` is decimal digits reading back as `n`; of a negative `n`, a '-' and then decimal digits reading back as `-n`; there is no leading zero, and 0 is the single digit `0` |
| PyInt.DigitsUnique | main.py:461 | decimal notation is unique: digits without a leading zero that denote `n` are exactly the digits of `n`, so the clauses above determine the text of `str(n)` |
| PyInt.NatDigitsValue | main.py:461 | the decimal digits of a natural number read back as that number |
| Scheduler.JobIdInjective | main.py:461 | distinct users have distinct job ids |
| Scheduler.ScheduleUserJob | main.py:460-482 | the call raises exactly when the time is out of range; no other user's job changes |
| Scheduler.LatestWins | main.py:462-482 | an accepted time becomes the user's only job; a rejected one leaves the user with no job |
| Scheduler.OthersUnchanged | main.py:461-464 | no other user's job is added, removed or moved |
| Scheduler.ReplaceTwice | main.py:462-482 | scheduling twice equals scheduling once with the second time |
| Scheduler.InvalidTimeDropsJob | main.py:462-466 | a user with an 18:30 job who asks for 25:00 loses the job and gets none |
| Scheduler.ScheduleValidatedFirst | main.py:460-482 | with the time checked first, a rejected call raises and leaves the table as it was |
| Scheduler.ValidatedFirstAgrees | main.py:460-482 | the corrected schedule equals the as-written one for every accepted time |
| Scheduler.RejectedKeepsOldJob | main.py:462-466 | with the time checked first, a rejected call keeps the user's old job |
| Scheduler.LastCallFor | main.py:460-482 | the last call for a user: it is for that user, and no later call is |
| Scheduler.LastValidFor | main.py:460-482 | the last in-range time asked for by a user: no later call for that user is in range |
| Scheduler.ReplayAsWritten | main.py:460-482 | after any run of calls, a user's job is the time of the user's last call if that time is in range, no job if it is not, and the starting job if the user was never called |
| Scheduler.ReplayValidatedKeepsLastValid | main.py:460-482 | with the time checked first, a user's job after a run is the last in-range time asked for, else the starting job |
| Scheduler.OnlyCalledUsers | main.py:459-482 | starting empty, every job id in the table belongs to a user some call named |
| Scheduler.Fire | main.py:468-480 | the job sends the screenshot exactly when the snapshot is ready, and sends that snapshot |
| Scheduler.FiringOutcome | main.py:468-480 | a firing sends the error text exactly when there is no profile and raises exactly when prices could not be had; otherwise it sends four rows, and the caption names the source unless it was CoinGecko |

## Left out

- HTTP transport, JSON decoding and timeouts: each Binance reply and each CoinGecko attempt is an input value.
- The clock and `asyncio.sleep`: `now` is a parameter, and sleeps are recorded as a list of delays.
- Concurrency: the scheduler process, overlapping firings, and races on the cache file.
- SQLite profile storage (`db_init`, `get_profile`, `upsert_profile`): the profile is an input record.
- Rendering and presentation: Playwright, the HTML template, icons, the `:g` and thousands-separator formatting of amounts, prices and `total`, and caption texts. The note a firing adds to its caption is a three-valued tag, and the firing's timestamp is omitted.
- Telegram handlers and keyboards (`cmd_*`, `cb_*`, `menu_kb`) and the Chromium installer.
- Floating point: Python's floats are exact `real`s here. Products, quotients, `total +=` and the comparison `total > 0` are exact, and `inf` and `nan` are not represented. This matters at the `total > 0` guard: `parse_setup` accepts negative amounts, so row values 0.1, -0.3, 0.0 and 0.2 can occur. Their float sum is about 2.8e-17, which is positive, so Python divides by it; the exact sum is 0, so the model's total change is 0.0.
- PyRound.Round2: rounds the exact real, half to even. Python rounds the nearest binary float, so on ties that the float cannot represent exactly the two can differ by a cent.
- Python's `float()` and `int()` are the parameters `parseReal` and `parseInt` of `SetupParser`. Their own syntax (underscores, signs, white space, `inf`) is not modelled.
- PyText.Lower and PyText.Upper: only ASCII letters plus the long s (U+017F, which upper-cases to `S`) change case. Other Unicode case mappings are not modelled. They cannot turn a key into one of the four slot names.
- Scheduler.ValidTime: APScheduler is not part of this model. Its `CronTrigger` is taken to raise exactly when the hour is outside 0..23 or the minute outside 0..59. Trigger firing times and time zones are not modelled.
- The cache file's contents are assumed well formed when present. A file that cannot be read or decoded is the empty slot. A cached map missing one of the three symbols makes the cache path fail, as the source's `KeyError` would.

## Findings

| source | as written | input that shows it | evidently intended | confidence | as-written member | corrected member |
|---|---|---|---|---|---|---|
| main.py:462-466 | the user's old job is removed before `CronTrigger` validates hour and minute, so a rejected time raises after the old job is gone | a user with a job at 18:30 sends `/time 25:00` (`int` accepts it and nothing checks the range) | a rejected time leaves the existing job in place | medium, not executed (relies on `CronTrigger` raising on out-of-range fields) | Scheduler.InvalidTimeDropsJob | Scheduler.RejectedKeepsOldJob |

=== FILE: assets.dfy ===
/**
  The quote records that flow from the price resolver into the snapshot:
  one quote per tracked asset (ZRO, BNB, USDT), each a USD price plus an
  optional 24-hour change in percent, and the tag naming the source.
 */
module Assets {
  import opened Options

  /** `{"price": float, "h24": float | None}` of `fetch_prices`. */
  datatype Quote = Quote(price: real, h24: Option<real>)

  /** The three-entry dictionary returned by `fetch_prices`. */
  datatype PriceSet = PriceSet(zro: Quote, bnb: Quote, usdt: Quote)

  /** The second component of `fetch_prices`' result: 'binance', 'coingecko' or 'cache'. */
  datatype Source = Binance | CoinGecko | Cache

  /** What one call of `fetch_prices` ends in: a price set with its origin, or an exception. */
  datatype Outcome = Resolved(prices: PriceSet, source: Source) | Failed
}

=== FILE: options.dfy ===
/** The optional value used throughout the model for Python's `None`-or-value. */
module Options {

  datatype Option<+T> = None | Some(value: T) {

    /** The value, or `default` when there is none (Python's `x if x is not None else default`). */
    function GetOr(default: T): T
    {
      match this
      case Some(v) => v
      case None => default
    }
  }
}

=== FILE: price_cache.dfy ===
/**
  The single-slot price cache (`prices_cache.json`): one entry holding the
  time it was written and the prices written. The file is modelled as an
  optional entry; a file that is missing or cannot be decoded is `None`.
  The clock is a parameter: `now` is the Unix time at which the cache is
  read or written.
 */
module PriceCache {
  import opened Options

  /** `CACHE_TTL_SECONDS`: a cached entry is usable for this many seconds. */
  const TtlSeconds: real := 180.0

  /** The decoded cache file: `{"ts": <unix seconds>, "prices": {symbol: price}}`. */
  datatype Entry = Entry(ts: real, prices: map<string, real>)

  /** Whether an entry written at `ts` may still be served at `now`; the bound is inclusive and a `ts` in the future counts as fresh. */
  predicate Fresh(ts: real, now: real)
  {
    now - ts <= TtlSeconds
  }

  /**
    `_cache_read`: the stored prices when the slot holds an entry that is
    fresh at `now`, and nothing otherwise.
   */
  function Read(slot: Option<Entry>, now: real): (r: Option<map<string, real>>)
    ensures r.Some? <==> slot.Some? && now - slot.value.ts <= TtlSeconds
    ensures r.Some? ==> r.value == slot.value.prices
  {
    match slot
    case Some(e) => if Fresh(e.ts, now) then Some(e.prices) else None
    case None => None
  }

  /**
    How a call of `_cache_write` ends. `write_text` opens the file in mode
    `'w'`, which truncates it, and then writes: a failure before the file is
    opened (the payload cannot be serialised, the file cannot be opened)
    leaves the old file, while a failure after the truncation (a full disk,
    say) leaves an empty or cut-off file, which no longer decodes.
   */
  datatype WriteOutcome = Stored | Untouched | Truncated

  /**
    `_cache_write`: replaces the whole entry with `prices` stamped `now`.
    Its exceptions are swallowed, so a failed write leaves either the
    previous entry or, after truncation, a file `_cache_read` cannot decode.
   */
  function Write(slot: Option<Entry>, prices: map<string, real>, now: real, outcome: WriteOutcome): (r: Option<Entry>)
    ensures outcome == Stored ==> r == Some(Entry(now, prices))
    ensures outcome == Untouched ==> r == slot
    ensures outcome == Truncated ==> r == None
  {
    match outcome
    case Stored => Some(Entry(now, prices))
    case Untouched => slot
    case Truncated => None
  }

  /**
    A failed write never makes new prices readable: a later read gives
    either what it would have given before the write or nothing.
   */
  lemma FailedWriteServesNothingNew(slot: Option<Entry>, prices: map<string, real>, now: real,
                                    outcome: WriteOutcome, later: real)
    requires outcome != Stored
    ensures var r := Read(Write(slot, prices, now, outcome), later);
            r == None || r == Read(slot, later)
  {
  }

  /** A write followed by a read at most 180 seconds later (or earlier) gives back exactly the written prices, whatever was there before. */
  lemma ReadAfterWrite(slot: Option<Entry>, prices: map<string, real>, written: real, now: real)
    requires now - written <= TtlSeconds
    ensures Read(Write(slot, prices, written, Stored), now) == Some(prices)
  {
  }

  /** A read more than 180 seconds after a write gives nothing, whatever was written. */
  lemma StaleAfterTtl(slot: Option<Entry>, prices: map<string, real>, written: real, now: real)
    requires now - written > TtlSeconds
    ensures Read(Write(slot, prices, written, Stored), now) == None
  {
  }

  /** Each write replaces the last one: two successful writes leave only the second. */
  lemma LastWriterWins(slot: Option<Entry>, p1: map<string, real>, t1: real, p2: map<string, real>, t2: real)
    ensures Write(Write(slot, p1, t1, Stored), p2, t2, Stored) == Write(slot, p2, t2, Stored)
  {
  }
}

=== FILE: price_resolver.dfy ===
/**
  `fetch_prices`: Binance first, then CoinGecko with bounded retry, then
  the cache. Every HTTP exchange is abstracted into the value the code
  makes of it, the clock into the parameter `now`, and `asyncio.sleep`
  into the recorded sequence of delays. The result carries the trace of
  what the call did besides returning: the delays it slept, how many
  CoinGecko requests it made, and the prices it handed to `_cache_write`.
 */
module PriceResolver {
  import opened Options
  import opened Assets
  import PriceCache

  // ---------------------------------------------------------------------------
  // Inputs

  /**
    One Binance response as the code uses it: the number parsed from the
    expected field (`price` or `priceChangePercent`), or `Broken` for any
    failure on the way (no connection, a timeout, an error status, a
    missing field, a value `float` rejects).
   */
  datatype BinanceReply = Number(value: real) | Broken

  /** The four Binance requests, in the order `fetch_prices` issues them: BNB price, ZRO price, BNB 24h change, ZRO 24h change. */
  datatype BinanceReplies = BinanceReplies(
    bnbPrice: BinanceReply, zroPrice: BinanceReply, bnbChange: BinanceReply, zroChange: BinanceReply)

  /** Binance is used only when all four replies carry a number. */
  predicate AllAnswered(b: BinanceReplies)
  {
    b.bnbPrice.Number? && b.zroPrice.Number? && b.bnbChange.Number? && b.zroChange.Number?
  }

  /**
    The body of a CoinGecko response: the three USD prices, a body whose
    content type is not JSON (`r.json()` raises `ContentTypeError`), or a
    body with a JSON content type that does not decode (`r.json()` raises
    `JSONDecodeError`) or lacks a usable `usd` number for one of the three ids.
   */
  datatype GeckoBody = Usd(zro: real, bnb: real, usdt: real) | NotJson | Malformed

  /** One CoinGecko request: a response with its HTTP status, or no response at all (connection failure, timeout). */
  datatype GeckoAttempt = Reply(status: int, body: GeckoBody) | NoReply

  /**
    What one pass of the retry loop makes of an attempt: the prices, an
    `aiohttp.ClientResponseError` (the first `except` clause), or any
    other exception (the second `except` clause).
   */
  datatype AttemptResult = Quoted(zro: real, bnb: real, usdt: real) | ResponseError | OtherError

  /**
    The exception an attempt raises. The explicit test for 429 and 5xx
    raises the same exception type as `raise_for_status`, so every status
    from 400 up is retried alike; a body whose content type is not JSON is
    a response error too, because `ContentTypeError` is a
    `ClientResponseError`. A body that fails to decode under a JSON content
    type raises `JSONDecodeError`, which is another error and not retried.
   */
  function Classify(a: GeckoAttempt): (c: AttemptResult)
    ensures c.ResponseError? <==> a.Reply? && (a.status >= 400 || a.body.NotJson?)
    ensures c.Quoted? <==> a.Reply? && a.status < 400 && a.body.Usd?
    ensures c.Quoted? ==> c == Quoted(a.body.zro, a.body.bnb, a.body.usdt)
  {
    match a
    case NoReply => OtherError
    case Reply(status, body) =>
      if status == 429 || 500 <= status < 600 then ResponseError
      else if status >= 400 then ResponseError
      else
        match body
        case Usd(z, b, u) => Quoted(z, b, u)
        case NotJson => ResponseError
        case Malformed => OtherError
  }

  // ---------------------------------------------------------------------------
  // Results

  /** `backoffs`: the delay slept after the i-th rejected CoinGecko attempt; its length is the number of attempts. */
  const Backoffs: seq<real> := [0.5, 1.2, 2.5, 5.0]

  /**
    What one call of `fetch_prices` did: its outcome, the delays it slept
    in order, the number of CoinGecko requests it issued, and the prices
    it passed to `_cache_write` (if it wrote).
   */
  datatype Fetch = Fetch(outcome: Outcome, sleeps: seq<real>, geckoRequests: nat, cacheWrite: Option<map<string, real>>)

  /** The Binance price set: 24h changes for ZRO and BNB, USDT pinned to price 1.0 and change 0.0. */
  function BinancePrices(zro: real, zro24: real, bnb: real, bnb24: real): PriceSet
  {
    PriceSet(Quote(zro, Some(zro24)), Quote(bnb, Some(bnb24)), Quote(1.0, Some(0.0)))
  }

  /** The price set built from CoinGecko or from the cache: no 24h change for ZRO and BNB, change 0.0 for USDT, whose price comes from the data. */
  function PlainPrices(zro: real, bnb: real, usdt: real): PriceSet
  {
    PriceSet(Quote(zro, None), Quote(bnb, None), Quote(usdt, Some(0.0)))
  }

  /** The mapping handed to `_cache_write`. */
  function PriceRecord(zro: real, bnb: real, usdt: real): map<string, real>
  {
    map["ZRO" := zro, "BNB" := bnb, "USDT" := usdt]
  }

  /**
    The cache step: `cached = _cache_read(); if cached: return ..., "cache"`
    and otherwise re-raise. An empty mapping is falsy; a non-empty one
    lacking a symbol raises `KeyError`. Either way the call fails.
   */
  function FromCache(cached: Option<map<string, real>>): (o: Outcome)
    ensures o.Resolved? <==> cached.Some? && "ZRO" in cached.value && "BNB" in cached.value && "USDT" in cached.value
    ensures o.Resolved? ==> o.source == Cache
                            && o.prices == PlainPrices(cached.value["ZRO"], cached.value["BNB"], cached.value["USDT"])
  {
    match cached
    case None => Failed
    case Some(m) =>
      if m == map[] then Failed
      else if "ZRO" in m && "BNB" in m && "USDT" in m then Resolved(PlainPrices(m["ZRO"], m["BNB"], m["USDT"]), Cache)
      else Failed
  }

  // ---------------------------------------------------------------------------
  // The reference definition

  /**
    The CoinGecko attempt, from `i` on, that ends the retry loop: the first
    one that is not a response error, or the last one, which is never
    retried.
   */
  function Settled(attempts: seq<GeckoAttempt>, i: nat): (k: nat)
    requires |attempts| == |Backoffs| && i < |attempts|
    ensures i <= k < |attempts|
    ensures forall j :: i <= j < k ==> Classify(attempts[j]).ResponseError?
    ensures k < |attempts| - 1 ==> !Classify(attempts[k]).ResponseError?
    decreases |attempts| - i
  {
    if i < |attempts| - 1 && Classify(attempts[i]).ResponseError? then Settled(attempts, i + 1) else i
  }

  /** The settling attempt is pinned down by its contract: whatever index has that shape is the one. */
  lemma SettledIs(attempts: seq<GeckoAttempt>, k: nat)
    requires |attempts| == |Backoffs| && k < |attempts|
    requires forall j :: 0 <= j < k ==> Classify(attempts[j]).ResponseError?
    requires k == |attempts| - 1 || !Classify(attempts[k]).ResponseError?
    ensures Settled(attempts, 0) == k
  {
  }

  /**
    What `fetch_prices` does, stated without its loop: Binance when all four
    replies are numbers; otherwise the CoinGecko attempt that settles the
    retry loop decides, after sleeping the delays of the attempts before
    it; when that attempt brings no prices the cache decides.
   */
  function Resolve(b: BinanceReplies, attempts: seq<GeckoAttempt>, cache: Option<PriceCache.Entry>, now: real): (f: Fetch)
    requires |attempts| == |Backoffs|
    ensures f.geckoRequests <= |Backoffs|
    ensures f.geckoRequests == 0 <==> AllAnswered(b)
    ensures f.geckoRequests > 0 ==> && f.sleeps == Backoffs[..f.geckoRequests - 1]
                                    && forall j :: 0 <= j < f.geckoRequests - 1 ==> Classify(attempts[j]).ResponseError?
    ensures f.cacheWrite.Some? <==> f.outcome.Resolved? && f.outcome.source != Cache
  {
    if AllAnswered(b) then
      var zro, bnb := b.zroPrice.value, b.bnbPrice.value;
      Fetch(Resolved(BinancePrices(zro, b.zroChange.value, bnb, b.bnbChange.value), Binance), [], 0,
            Some(PriceRecord(zro, bnb, 1.0)))
    else
      var k := Settled(attempts, 0);
      match Classify(attempts[k])
      case Quoted(z, bn, u) =>
        Fetch(Resolved(PlainPrices(z, bn, u), CoinGecko), Backoffs[..k], k + 1, Some(PriceRecord(z, bn, u)))
      case _ =>
        Fetch(FromCache(PriceCache.Read(cache, now)), Backoffs[..k], k + 1, None)
  }

  // ---------------------------------------------------------------------------
  // The control flow of `fetch_prices`

  /**
    `fetch_prices` step by step: the Binance block, the `for` loop over
    `backoffs` with its two `except` clauses, and the block after the loop.
    `now` is the clock reading at the moment the cache is read or written.
   */
  method FetchPrices(b: BinanceReplies, attempts: seq<GeckoAttempt>, cache: Option<PriceCache.Entry>, now: real)
    returns (f: Fetch)
    requires |attempts| == |Backoffs|
    ensures f == Resolve(b, attempts, cache, now)
  {
    // A) Binance: all four numbers or nothing.
    if AllAnswered(b) {
      var bnb, zro := b.bnbPrice.value, b.zroPrice.value;
      var prices := BinancePrices(zro, b.zroChange.value, bnb, b.bnbChange.value);
      f := Fetch(Resolved(prices, Binance), [], 0, Some(PriceRecord(zro, bnb, 1.0)));
      return;
    }
    // B) CoinGecko with retry.
    var sleeps: seq<real> := [];
    var i := 0;
    while i < |Backoffs|
      invariant 0 <= i < |Backoffs|
      invariant sleeps == Backoffs[..i]
      invariant forall j :: 0 <= j < i ==> Classify(attempts[j]).ResponseError?
    {
      match Classify(attempts[i]) {
        case Quoted(z, bn, u) =>
          SettledIs(attempts, i);
          f := Fetch(Resolved(PlainPrices(z, bn, u), CoinGecko), sleeps, i + 1, Some(PriceRecord(z, bn, u)));
          return;
        case ResponseError =>
          if i < |Backoffs| - 1 {
            sleeps := sleeps + [Backoffs[i]];
            i := i + 1;
            continue;
          }
          SettledIs(attempts, i);
          f := Fetch(FromCache(PriceCache.Read(cache, now)), sleeps, i + 1, None);
          return;
        case OtherError =>
          SettledIs(attempts, i);
          f := Fetch(FromCache(PriceCache.Read(cache, now)), sleeps, i + 1, None);
          return;
      }
    }
    // C) The block after the loop cannot be reached: every pass returns, raises or
    // retries, and the last pass cannot retry.
    assert false;
  }

  // ---------------------------------------------------------------------------
  // Properties

  /** Binance is all-or-nothing: when any one reply fails, the values of the others make no difference. */
  lemma BinanceAllOrNothing(b1: BinanceReplies, b2: BinanceReplies, attempts: seq<GeckoAttempt>,
                            cache: Option<PriceCache.Entry>, now: real)
    requires |attempts| == |Backoffs|
    requires !AllAnswered(b1) && !AllAnswered(b2)
    ensures Resolve(b1, attempts, cache, now) == Resolve(b2, attempts, cache, now)
  {
  }

  /** When all four Binance replies are numbers the result is Binance's, with USDT pinned, without touching CoinGecko or reading the cache. */
  lemma BinanceSuccess(b: BinanceReplies, attempts: seq<GeckoAttempt>, cache: Option<PriceCache.Entry>, now: real)
    requires |attempts| == |Backoffs| && AllAnswered(b)
    ensures var f := Resolve(b, attempts, cache, now);
            && f.outcome.Resolved? && f.outcome.source == Binance
            && f.outcome.prices.zro == Quote(b.zroPrice.value, Some(b.zroChange.value))
            && f.outcome.prices.bnb == Quote(b.bnbPrice.value, Some(b.bnbChange.value))
            && f.outcome.prices.usdt == Quote(1.0, Some(0.0))
            && f.sleeps == [] && f.geckoRequests == 0
            && f.cacheWrite == Some(map["ZRO" := b.zroPrice.value, "BNB" := b.bnbPrice.value, "USDT" := 1.0])
  {
  }

  /**
    At most four CoinGecko requests are made, one more than the delays
    slept, and the delays are a prefix of 0.5, 1.2, 2.5: the last backoff,
    5.0, is never slept.
   */
  lemma RetryIsBounded(b: BinanceReplies, attempts: seq<GeckoAttempt>, cache: Option<PriceCache.Entry>, now: real)
    requires |attempts| == |Backoffs|
    ensures var f := Resolve(b, attempts, cache, now);
            && f.geckoRequests <= |Backoffs|
            && f.sleeps == Backoffs[..|f.sleeps|]
            && (!AllAnswered(b) ==> f.geckoRequests == |f.sleeps| + 1)
            && |f.sleeps| < |Backoffs|
            && 5.0 !in f.sleeps
  {
    var f := Resolve(b, attempts, cache, now);
    if !AllAnswered(b) {
      var k := Settled(attempts, 0);
      assert f.sleeps == Backoffs[..k];
      assert forall x :: x in Backoffs[..k] ==> x in Backoffs[..3];
      assert Backoffs[..3] == [0.5, 1.2, 2.5];
    }
  }

  /** When every CoinGecko attempt is a response error (429 each time, say), all four are made, 0.5, 1.2 and 2.5 seconds are slept, and the cache decides. */
  lemma EveryAttemptRejected(b: BinanceReplies, attempts: seq<GeckoAttempt>, cache: Option<PriceCache.Entry>, now: real)
    requires |attempts| == |Backoffs| && !AllAnswered(b)
    requires forall j :: 0 <= j < |attempts| ==> Classify(attempts[j]).ResponseError?
    ensures var f := Resolve(b, attempts, cache, now);
            && f.sleeps == [0.5, 1.2, 2.5]
            && f.geckoRequests == 4
            && f.outcome == FromCache(PriceCache.Read(cache, now))
            && f.cacheWrite == None
  {
    SettledIs(attempts, 3);
  }

  /** Any exception other than a response error ends the retrying at once: the cache decides after the delays slept so far. */
  lemma OtherErrorIsNotRetried(b: BinanceReplies, attempts: seq<GeckoAttempt>, cache: Option<PriceCache.Entry>, now: real,
                               k: nat)
    requires |attempts| == |Backoffs| && !AllAnswered(b) && k < |attempts|
    requires forall j :: 0 <= j < k ==> Classify(attempts[j]).ResponseError?
    requires Classify(attempts[k]).OtherError?
    ensures var f := Resolve(b, attempts, cache, now);
            && f.sleeps == Backoffs[..k]
            && f.geckoRequests == k + 1
            && f.outcome == FromCache(PriceCache.Read(cache, now))
            && f.cacheWrite == None
  {
    SettledIs(attempts, k);
  }

  /** CoinGecko answers within the retry budget: some attempt brings prices and every attempt before it was a response error. */
  ghost predicate GeckoAnswers(attempts: seq<GeckoAttempt>)
  {
    exists j :: 0 <= j < |attempts| && Classify(attempts[j]).Quoted?
                && forall i :: 0 <= i < j ==> Classify(attempts[i]).ResponseError?
  }

  /**
    Which source a result comes from: Binance exactly when all four Binance
    replies are numbers; CoinGecko exactly when Binance failed and CoinGecko
    answers within its retry budget; the cache exactly when both failed and
    the cache holds fresh prices for all three symbols. The call fails in
    every other case.
   */
  lemma {:induction false} SourceOrder(b: BinanceReplies, attempts: seq<GeckoAttempt>, cache: Option<PriceCache.Entry>, now: real)
    requires |attempts| == |Backoffs|
    ensures var o := Resolve(b, attempts, cache, now).outcome;
            && (o.Resolved? && o.source == Binance <==> AllAnswered(b))
            && (o.Resolved? && o.source == CoinGecko <==> !AllAnswered(b) && GeckoAnswers(attempts))
            && (o.Resolved? && o.source == Cache <==>
                  !AllAnswered(b) && !GeckoAnswers(attempts) && FromCache(PriceCache.Read(cache, now)).Resolved?)
            && (o.Failed? <==>
                  !AllAnswered(b) && !GeckoAnswers(attempts) && FromCache(PriceCache.Read(cache, now)).Failed?)
  {
    if !AllAnswered(b) {
      var k := Settled(attempts, 0);
      if Classify(attempts[k]).Quoted? {
        assert GeckoAnswers(attempts);
      }
      if GeckoAnswers(attempts) {
        AnswerSettles(attempts);
      }
    }
  }

  /** When CoinGecko answers within the budget, the attempt that settles the loop is the one that brings prices. */
  lemma AnswerSettles(attempts: seq<GeckoAttempt>)
    requires |attempts| == |Backoffs| && GeckoAnswers(attempts)
    ensures Classify(attempts[Settled(attempts, 0)]).Quoted?
  {
    var j :| 0 <= j < |attempts| && Classify(attempts[j]).Quoted?
             && forall i :: 0 <= i < j ==> Classify(attempts[i]).ResponseError?;
    SettledIs(attempts, j);
  }

  /**
    Only Binance reports a 24h change for ZRO and BNB or pins USDT's price
    to 1.0. CoinGecko reports the three prices of the attempt that settled
    the loop, USDT's included; the cache reports the three cached prices.
    USDT's change is 0.0 on every path.
   */
  lemma ChangeByPath(b: BinanceReplies, attempts: seq<GeckoAttempt>, cache: Option<PriceCache.Entry>, now: real)
    requires |attempts| == |Backoffs|
    ensures var o := Resolve(b, attempts, cache, now).outcome;
            o.Resolved? ==>
              && o.prices.usdt.h24 == Some(0.0)
              && (o.source == Binance <==> o.prices.zro.h24.Some?)
              && (o.source == Binance <==> o.prices.bnb.h24.Some?)
              && (o.source == Binance ==> o.prices.usdt.price == 1.0)
    ensures var o := Resolve(b, attempts, cache, now).outcome;
            var q := Classify(attempts[Settled(attempts, 0)]);
            o.Resolved? && o.source == CoinGecko ==>
              && q.Quoted?
              && o.prices.zro.price == q.zro && o.prices.bnb.price == q.bnb && o.prices.usdt.price == q.usdt
    ensures var o := Resolve(b, attempts, cache, now).outcome;
            var m := PriceCache.Read(cache, now);
            o.Resolved? && o.source == Cache ==>
              && m.Some? && "ZRO" in m.value && "BNB" in m.value && "USDT" in m.value
              && o.prices.zro.price == m.value["ZRO"] && o.prices.bnb.price == m.value["BNB"]
              && o.prices.usdt.price == m.value["USDT"]
  {
  }

  /**
    The cache is written exactly when fresh data was fetched, and what is
    written is what was returned: a read within the TTL afterwards replays
    the same prices, tagged as cached, without the 24h changes.
   */
  lemma CacheReplaysFetch(b: BinanceReplies, attempts: seq<GeckoAttempt>, cache: Option<PriceCache.Entry>, now: real,
                          later: real)
    requires |attempts| == |Backoffs|
    requires later - now <= PriceCache.TtlSeconds
    ensures var f := Resolve(b, attempts, cache, now);
            && (f.cacheWrite.Some? <==> f.outcome.Resolved? && f.outcome.source != Cache)
            && (f.cacheWrite.Some? ==>
                  var p := f.outcome.prices;
                  FromCache(PriceCache.Read(PriceCache.Write(cache, f.cacheWrite.value, now, PriceCache.Stored), later))
                  == Resolved(PlainPrices(p.zro.price, p.bnb.price, p.usdt.price), Cache))
  {
    var f := Resolve(b, attempts, cache, now);
    if f.cacheWrite.Some? {
      PriceCache.ReadAfterWrite(cache, f.cacheWrite.value, now, later);
    }
  }
}

=== FILE: pyint.dfy ===
/** Python's `str(n)` for an `int`, which names a user's scheduler job. */
module PyInt {

  function DigitChar(d: nat): (c: char)
    requires d < 10
    ensures '0' <= c <= '9'
    ensures c as int == '0' as int + d
  {
    ('0' as int + d) as char
  }

  /** The decimal digits of `n`, most significant first, with no leading zero. */
  function NatDigits(n: nat): (r: string)
    ensures |r| >= 1
    ensures n >= 10 ==> |r| >= 2
    ensures n < 10 ==> |r| == 1
    ensures forall i :: 0 <= i < |r| ==> '0' <= r[i] <= '9'
    ensures n > 0 ==> r[0] != '0'
    decreases n
  {
    if n < 10 then [DigitChar(n)] else NatDigits(n / 10) + [DigitChar(n % 10)]
  }

  /** The number a string of decimal digits denotes, most significant first, as `int()` reads it. */
  function DigitsValue(s: string): int
    decreases |s|
  {
    if s == [] then 0 else DigitsValue(s[..|s| - 1]) * 10 + (s[|s| - 1] as int - '0' as int)
  }

  /** The digits of `n` read back as `n`. */
  lemma {:induction false} NatDigitsValue(n: nat)
    ensures DigitsValue(NatDigits(n)) == n
    decreases n
  {
    var d := NatDigits(n);
    if n >= 10 {
      NatDigitsValue(n / 10);
      assert d[..|d| - 1] == NatDigits(n / 10);
      assert d[|d| - 1] == DigitChar(n % 10);
    } else {
      assert d[..|d| - 1] == [];
      assert d[0] == DigitChar(n);
    }
  }

  /** A string of decimal digits whose first digit is not `0` denotes a positive number. */
  lemma {:induction false} LeadingDigitPositive(s: string)
    requires |s| >= 1 && s[0] != '0'
    requires forall i :: 0 <= i < |s| ==> '0' <= s[i] <= '9'
    ensures DigitsValue(s) >= 1
    decreases |s|
  {
    if |s| > 1 {
      LeadingDigitPositive(s[..|s| - 1]);
    } else {
      assert s[..|s| - 1] == [];
    }
  }

  /**
    Decimal notation is unique: a non-empty string of digits without a
    leading zero (other than `0` itself) that denotes `n` is `NatDigits(n)`.
    Digits, no leading zero and the value therefore pin the text of `str(n)`.
   */
  lemma {:induction false} DigitsUnique(s: string, n: nat)
    requires |s| >= 1 && (|s| > 1 ==> s[0] != '0')
    requires forall i :: 0 <= i < |s| ==> '0' <= s[i] <= '9'
    requires DigitsValue(s) == n
    ensures s == NatDigits(n)
    decreases |s|
  {
    var p := s[..|s| - 1];
    if |s| == 1 {
      assert p == [];
      assert s == [DigitChar(n)];
    } else {
      LeadingDigitPositive(p);
      var d := s[|s| - 1] as int - '0' as int;
      assert n == DigitsValue(p) * 10 + d && 0 <= d < 10;
      assert DigitsValue(p) == n / 10 && d == n % 10;
      DigitsUnique(p, n / 10);
      assert s == p + [DigitChar(n % 10)];
    }
  }

  /** `str(n)`: an optional minus sign, then the digits of `|n|`, which read back as `|n|`. */
  function IntToStr(n: int): (r: string)
    ensures n >= 0 ==> |r| >= 1 && DigitsValue(r) == n
    ensures n >= 0 ==> forall i :: 0 <= i < |r| ==> '0' <= r[i] <= '9'
    ensures n > 0 ==> r[0] != '0'
    ensures 0 <= n < 10 ==> |r| == 1
    ensures n < 0 ==> |r| >= 2 && r[0] == '-' && DigitsValue(r[1..]) == -n
    ensures n < 0 ==> (forall i :: 1 <= i < |r| ==> '0' <= r[i] <= '9') && r[1] != '0'
  {
    if n < 0 then
      NatDigitsValue(-n);
      assert ("-" + NatDigits(-n))[1..] == NatDigits(-n);
      "-" + NatDigits(-n)
    else
      NatDigitsValue(n);
      NatDigits(n)
  }

  lemma {:induction false} NatDigitsInjective(a: nat, b: nat)
    requires NatDigits(a) == NatDigits(b)
    ensures a == b
    decreases a
  {
    var da, db := NatDigits(a), NatDigits(b);
    if a >= 10 && b >= 10 {
      assert da[..|da| - 1] == NatDigits(a / 10);
      assert db[..|db| - 1] == NatDigits(b / 10);
      NatDigitsInjective(a / 10, b / 10);
      assert DigitChar(a % 10) == da[|da| - 1] == DigitChar(b % 10);
    } else if a < 10 && b < 10 {
      assert DigitChar(a) == da[0] == DigitChar(b);
    }
  }

  /** A negative number's text starts with '-', a non-negative number's with a digit. */
  lemma SignShows(a: int, b: int)
    requires a < 0 <= b
    ensures IntToStr(a) != IntToStr(b)
  {
    assert IntToStr(a)[0] == '-';
    assert '0' <= IntToStr(b)[0] <= '9';
  }

  /** Distinct integers print differently, so distinct users get distinct job names. */
  lemma IntToStrInjective(a: int, b: int)
    requires IntToStr(a) == IntToStr(b)
    ensures a == b
  {
    var sa, sb := IntToStr(a), IntToStr(b);
    if a < 0 && b < 0 {
      assert sa[1..] == NatDigits(-a);
      assert sb[1..] == NatDigits(-b);
      NatDigitsInjective(-a, -b);
    } else if a >= 0 && b >= 0 {
      NatDigitsInjective(a, b);
    } else if a < 0 {
      SignShows(a, b);
    } else {
      SignShows(b, a);
    }
  }
}

=== FILE: pyround.dfy ===
/**
  Python's `round(x, 2)` taken on exact reals: the nearest multiple of 0.01,
  a tie going to the even number of cents. CPython rounds the exact value of
  its binary float the same way; the reals here have no binary error.
 */
module PyRound {

  /** The whole number of cents `x` rounds to: the nearest, and the even one of two equally near. */
  function Cents(x: real): (n: int)
    ensures x * 100.0 - 0.5 <= n as real <= x * 100.0 + 0.5
    ensures n as real - x * 100.0 == 0.5 || x * 100.0 - n as real == 0.5 ==> n % 2 == 0
  {
    var scaled := x * 100.0;
    var f := scaled.Floor;
    var frac := scaled - f as real;
    if frac < 0.5 then f
    else if frac > 0.5 then f + 1
    else if f % 2 == 0 then f
    else f + 1
  }

  /**
    `round(x, 2)`: a whole number of cents within half a cent of `x`; when
    `x` lies exactly halfway between two such numbers, the even one.
   */
  function Round2(x: real): (r: real)
    ensures (r * 100.0).Floor as real == r * 100.0
    ensures x - 0.005 <= r <= x + 0.005
    ensures r - x == 0.005 || x - r == 0.005 ==> (r * 100.0).Floor % 2 == 0
  {
    var n := Cents(x);
    CentsToReal(x, n);
    n as real / 100.0
  }

  /** Dividing a whole number of cents by 100 keeps it whole and within half a cent of `x`. */
  lemma CentsToReal(x: real, n: int)
    requires x * 100.0 - 0.5 <= n as real <= x * 100.0 + 0.5
    ensures var r := n as real / 100.0;
            && r * 100.0 == n as real && (r * 100.0).Floor == n
            && x - 0.005 <= r <= x + 0.005
            && (r - x == 0.005 <==> n as real - x * 100.0 == 0.5)
            && (x - r == 0.005 <==> x * 100.0 - n as real == 0.5)
  {
  }

  /** Those three properties pin `round(x, 2)` down: no other number of cents has them. */
  lemma Round2Unique(x: real, n: int)
    requires x * 100.0 - 0.5 <= n as real <= x * 100.0 + 0.5
    requires n as real - x * 100.0 == 0.5 || x * 100.0 - n as real == 0.5 ==> n % 2 == 0
    ensures Round2(x) == n as real / 100.0
  {
    var c := Cents(x);
    assert c == n;
  }

  /** A whole number of cents is left as it is. */
  lemma Round2Keeps(n: int)
    ensures Round2(n as real / 100.0) == n as real / 100.0
  {
    var x := n as real / 100.0;
    assert x * 100.0 == n as real;
    assert (x * 100.0).Floor == n;
  }

  /** Rounding never reverses an order. */
  lemma Round2Monotone(x: real, y: real)
    requires x <= y
    ensures Round2(x) <= Round2(y)
  {
    var fx, fy := (x * 100.0).Floor, (y * 100.0).Floor;
    assert x * 100.0 <= y * 100.0;
    assert fx <= fy;
    if fx == fy {
      assert x * 100.0 - fx as real <= y * 100.0 - fy as real;
    }
    assert Cents(x) <= Cents(y);
  }
}

=== FILE: pytext.dfy ===
/**
  The parts of Python's `str` behaviour that the setup parser and the job
  identifiers rely on: `isspace`, `strip`, `split()`, `split(sep)`,
  `splitlines`, `lower`/`upper`, `replace` of one character, `startswith`
  and `str(int)`. Each is defined once here, with the property that makes
  it the Python operation rather than some other one.
 */
module PyText {

  /** The characters for which Python's `str.isspace` holds; `strip()` and `split()` remove exactly these. */
  predicate IsSpace(c: char)
  {
    || ('\t' <= c <= '\r')
    || ('\U{1C}' <= c <= '\U{1F}')
    || c == ' '
    || c == '\U{85}'
    || c == '\U{A0}'
    || c == '\U{1680}'
    || ('\U{2000}' <= c <= '\U{200A}')
    || c == '\U{2028}'
    || c == '\U{2029}'
    || c == '\U{202F}'
    || c == '\U{205F}'
    || c == '\U{3000}'
  }

  /** The line boundaries of Python's `str.splitlines` ("\r\n" counts as one boundary, handled in SplitLines). */
  predicate IsLineBreak(c: char)
  {
    || c == '\n'
    || c == '\r'
    || c == '\U{0B}'
    || c == '\U{0C}'
    || ('\U{1C}' <= c <= '\U{1E}')
    || c == '\U{85}'
    || c == '\U{2028}'
    || c == '\U{2029}'
  }

  /** The position of the first white-space character of `s`, or `|s|` when there is none. */
  function FirstSpace(s: string): (k: nat)
    ensures k <= |s|
    ensures forall i :: 0 <= i < k ==> !IsSpace(s[i])
    ensures k < |s| ==> IsSpace(s[k])
  {
    if s == [] || IsSpace(s[0]) then 0 else 1 + FirstSpace(s[1..])
  }

  /** The position of the first line boundary of `s`, or `|s|` when there is none. */
  function FirstLineBreak(s: string): (k: nat)
    ensures k <= |s|
    ensures forall i :: 0 <= i < k ==> !IsLineBreak(s[i])
    ensures k < |s| ==> IsLineBreak(s[k])
  {
    if s == [] || IsLineBreak(s[0]) then 0 else 1 + FirstLineBreak(s[1..])
  }

  /** The position of the first `c` in `s` (Python's `s.find(c)`), or `|s|` when there is none. */
  function IndexOf(s: string, c: char): (k: nat)
    ensures k <= |s|
    ensures forall i :: 0 <= i < k ==> s[i] != c
    ensures k < |s| ==> s[k] == c
  {
    if s == [] || s[0] == c then 0 else 1 + IndexOf(s[1..], c)
  }

  /** The characters of `s` that are not white space, in order. */
  function NonSpace(s: string): (r: string)
    ensures |r| <= |s|
    ensures forall i :: 0 <= i < |r| ==> !IsSpace(r[i])
  {
    if s == [] then [] else (if IsSpace(s[0]) then [] else [s[0]]) + NonSpace(s[1..])
  }

  /** The characters of `s` that are not line boundaries, in order. */
  function NonBreak(s: string): (r: string)
    ensures |r| <= |s|
    ensures forall i :: 0 <= i < |r| ==> !IsLineBreak(r[i])
  {
    if s == [] then [] else (if IsLineBreak(s[0]) then [] else [s[0]]) + NonBreak(s[1..])
  }

  /** The concatenation of a sequence of strings. */
  function Concat(ss: seq<string>): string
  {
    if ss == [] then [] else ss[0] + Concat(ss[1..])
  }

  /** Concatenation is associative. */
  lemma Associate<T>(a: seq<T>, b: seq<T>, c: seq<T>)
    ensures a + b + c == a + (b + c)
  {
  }

  /** A non-empty sequence is its head followed by its tail. */
  lemma HeadTail<T>(xs: seq<T>)
    requires xs != []
    ensures [xs[0]] + xs[1..] == xs
  {
  }

  lemma {:induction false} NonSpaceAppend(a: string, b: string)
    ensures NonSpace(a + b) == NonSpace(a) + NonSpace(b)
    decreases |a|
  {
    if a == [] {
      assert a + b == b;
    } else {
      var head := if IsSpace(a[0]) then [] else [a[0]];
      assert (a + b)[0] == a[0];
      assert (a + b)[1..] == a[1..] + b;
      NonSpaceAppend(a[1..], b);
      Associate(head, NonSpace(a[1..]), NonSpace(b));
    }
  }

  lemma {:induction false} NonSpaceOfWord(s: string)
    requires forall i :: 0 <= i < |s| ==> !IsSpace(s[i])
    ensures NonSpace(s) == s
    decreases |s|
  {
    if s != [] {
      NonSpaceOfWord(s[1..]);
    }
  }

  lemma {:induction false} NonSpaceOfBlank(s: string)
    requires forall i :: 0 <= i < |s| ==> IsSpace(s[i])
    ensures NonSpace(s) == []
    decreases |s|
  {
    if s != [] {
      NonSpaceOfBlank(s[1..]);
    }
  }

  lemma {:induction false} NonBreakAppend(a: string, b: string)
    ensures NonBreak(a + b) == NonBreak(a) + NonBreak(b)
    decreases |a|
  {
    if a == [] {
      assert a + b == b;
    } else {
      var head := if IsLineBreak(a[0]) then [] else [a[0]];
      assert (a + b)[0] == a[0];
      assert (a + b)[1..] == a[1..] + b;
      NonBreakAppend(a[1..], b);
      Associate(head, NonBreak(a[1..]), NonBreak(b));
    }
  }

  lemma {:induction false} NonBreakOfLine(s: string)
    requires forall i :: 0 <= i < |s| ==> !IsLineBreak(s[i])
    ensures NonBreak(s) == s
    decreases |s|
  {
    if s != [] {
      NonBreakOfLine(s[1..]);
    }
  }

  lemma {:induction false} NonBreakOfBreaks(s: string)
    requires forall i :: 0 <= i < |s| ==> IsLineBreak(s[i])
    ensures NonBreak(s) == []
    decreases |s|
  {
    if s != [] {
      NonBreakOfBreaks(s[1..]);
    }
  }

  // ---------------------------------------------------------------------------
  // strip()

  /** `s.lstrip()`: the suffix of `s` that remains after dropping leading white space. */
  function StripStart(s: string): (r: string)
    ensures |r| <= |s| && r == s[|s| - |r|..]
    ensures forall i :: 0 <= i < |s| - |r| ==> IsSpace(s[i])
    ensures r == [] || !IsSpace(r[0])
  {
    if s != [] && IsSpace(s[0]) then
      var r := StripStart(s[1..]);
      assert s[1..][|s| - 1 - |r|..] == s[|s| - |r|..];
      assert forall i :: 1 <= i < |s| - |r| ==> s[i] == s[1..][i - 1];
      r
    else s
  }

  /** `s.rstrip()`: the prefix of `s` that remains after dropping trailing white space. */
  function StripEnd(s: string): (r: string)
    ensures |r| <= |s| && r == s[..|r|]
    ensures forall i :: |r| <= i < |s| ==> IsSpace(s[i])
    ensures r == [] || !IsSpace(r[|r| - 1])
  {
    if s != [] && IsSpace(s[|s| - 1]) then StripEnd(s[..|s| - 1]) else s
  }

  /** `s.strip()`: the middle of `s` between its leading and its trailing white space. */
  function Strip(s: string): (r: string)
    ensures exists i, j :: 0 <= i <= j <= |s| && r == s[i..j]
                           && (forall k :: 0 <= k < i ==> IsSpace(s[k]))
                           && (forall k :: j <= k < |s| ==> IsSpace(s[k]))
    ensures r == [] || (!IsSpace(r[0]) && !IsSpace(r[|r| - 1]))
  {
    var t := StripStart(s);
    var r := StripEnd(t);
    var i := |s| - |t|;
    assert r == s[i..i + |r|];
    r
  }

  /** A string with nothing to strip at either end is its own stripped form. */
  lemma StripOfStripped(s: string)
    requires s == [] || (!IsSpace(s[0]) && !IsSpace(s[|s| - 1]))
    ensures Strip(s) == s
  {
  }

  /** `strip()` is idempotent. */
  lemma StripIdempotent(s: string)
    ensures Strip(Strip(s)) == Strip(s)
  {
    StripOfStripped(Strip(s));
  }

  // ---------------------------------------------------------------------------
  // split() and split(sep)

  /** A non-empty run of non-space characters. */
  predicate IsWord(w: string)
  {
    w != [] && forall j :: 0 <= j < |w| ==> !IsSpace(w[j])
  }

  /** `s.split()` with no argument: the maximal runs of non-space characters. */
  function Words(s: string): seq<string>
    decreases |s|
  {
    var t := StripStart(s);
    if t == [] then []
    else
      var k := FirstSpace(t);
      [t[..k]] + Words(t[k..])
  }

  lemma ConcatCons(w: string, ws: seq<string>)
    ensures Concat([w] + ws) == w + Concat(ws)
  {
    assert ([w] + ws)[1..] == ws;
  }

  /** One step of `split()`: the first word runs from the first non-space character to the next space. */
  lemma WordsStep(s: string)
    requires StripStart(s) != []
    ensures var t := StripStart(s);
            Words(s) == [t[..FirstSpace(t)]] + Words(t[FirstSpace(t)..])
  {
  }

  /** Every item of `ws` is a word. */
  predicate AllWords(ws: seq<string>)
  {
    forall i :: 0 <= i < |ws| ==> IsWord(ws[i])
  }

  lemma ConsWords(w: string, ws: seq<string>)
    requires IsWord(w) && AllWords(ws)
    ensures AllWords([w] + ws)
  {
    forall i | 0 <= i < |[w] + ws|
      ensures IsWord(([w] + ws)[i])
    {
      if i > 0 {
        assert ([w] + ws)[i] == ws[i - 1];
      }
    }
  }

  /** The first word of a string that starts with a non-space character is a word. */
  lemma FirstWordIsWord(t: string)
    requires t != [] && !IsSpace(t[0])
    ensures IsWord(t[..FirstSpace(t)])
  {
  }

  /** Every item `split()` yields is a word: non-empty, without white space. */
  lemma {:induction false} WordsAreWords(s: string)
    ensures AllWords(Words(s))
    decreases |s|
  {
    var t := StripStart(s);
    if t != [] {
      var k := FirstSpace(t);
      WordsStep(s);
      WordsAreWords(t[k..]);
      FirstWordIsWord(t);
      ConsWords(t[..k], Words(t[k..]));
    }
  }

  lemma NonSpaceOfStripStart(s: string)
    ensures NonSpace(StripStart(s)) == NonSpace(s)
  {
    var t := StripStart(s);
    var lead := s[..|s| - |t|];
    assert s == lead + t;
    NonSpaceAppend(lead, t);
    NonSpaceOfBlank(lead);
  }

  lemma NonSpaceOfFirstWord(t: string)
    ensures NonSpace(t) == t[..FirstSpace(t)] + NonSpace(t[FirstSpace(t)..])
  {
    var k := FirstSpace(t);
    assert t == t[..k] + t[k..];
    NonSpaceAppend(t[..k], t[k..]);
    NonSpaceOfWord(t[..k]);
  }

  /** `split()` loses nothing but white space: its words, glued together, are the non-space characters of `s`. */
  lemma {:induction false} WordsKeepNonSpace(s: string)
    ensures Concat(Words(s)) == NonSpace(s)
    decreases |s|
  {
    var t := StripStart(s);
    NonSpaceOfStripStart(s);
    if t != [] {
      var k := FirstSpace(t);
      var rest := t[k..];
      assert |rest| < |s|;
      calc {
        Concat(Words(s));
        { WordsStep(s); }
        Concat([t[..k]] + Words(rest));
        { ConcatCons(t[..k], Words(rest)); }
        t[..k] + Concat(Words(rest));
        { WordsKeepNonSpace(rest); }
        t[..k] + NonSpace(rest);
        { NonSpaceOfFirstWord(t); }
        NonSpace(t);
      }
    }
  }

  /** A run of white space, possibly empty. */
  predicate AllSpace(g: string)
  {
    forall j :: 0 <= j < |g| ==> IsSpace(g[j])
  }

  /** Every item of `gaps` is a run of white space. */
  predicate AllGaps(gaps: seq<string>)
  {
    forall i :: 0 <= i < |gaps| ==> AllSpace(gaps[i])
  }

  /** `gaps[0] + ws[0] + gaps[1] + ... + ws[n-1] + gaps[n]`. */
  function Weave(gaps: seq<string>, ws: seq<string>): string
    requires |gaps| == |ws| + 1
    decreases |ws|
  {
    if ws == [] then gaps[0] else gaps[0] + ws[0] + Weave(gaps[1..], ws[1..])
  }

  /**
    `ws` cuts `s` the way `split()` does: `s` is the words `ws` with runs of
    white space around them, a non-empty run between any two words, and
    possibly empty runs before the first and after the last.
   */
  predicate WordCut(gaps: seq<string>, ws: seq<string>, s: string)
  {
    && |gaps| == |ws| + 1
    && Weave(gaps, ws) == s
    && AllWords(ws)
    && AllGaps(gaps)
    && (forall i :: 0 < i < |ws| ==> gaps[i] != [])
  }

  /** Leading white space is what `lstrip()` removes, when what follows does not start with white space. */
  lemma {:induction false} StripStartOfGap(g: string, t: string)
    requires AllSpace(g) && (t == [] || !IsSpace(t[0]))
    ensures StripStart(g + t) == t
    decreases |g|
  {
    if g == [] {
      assert g + t == t;
    } else {
      assert (g + t)[0] == g[0];
      assert (g + t)[1..] == g[1..] + t;
      StripStartOfGap(g[1..], t);
    }
  }

  /** The first space is pinned down by its contract: whatever index has that shape is the one. */
  lemma {:induction false} FirstSpaceIs(s: string, k: nat)
    requires k <= |s|
    requires forall i :: 0 <= i < k ==> !IsSpace(s[i])
    requires k < |s| ==> IsSpace(s[k])
    ensures FirstSpace(s) == k
    decreases |s|
  {
    if s != [] && !IsSpace(s[0]) && k > 0 {
      assert forall i :: 0 <= i < k - 1 ==> s[1..][i] == s[i + 1];
      FirstSpaceIs(s[1..], k - 1);
    }
  }

  /** A word followed by nothing or by white space ends at the first space. */
  lemma FirstSpaceAfterWord(w: string, rest: string)
    requires IsWord(w) && (rest == [] || IsSpace(rest[0]))
    ensures FirstSpace(w + rest) == |w|
  {
    assert forall i :: 0 <= i < |w| ==> (w + rest)[i] == w[i];
    assert |w| < |w + rest| ==> (w + rest)[|w|] == rest[0];
    FirstSpaceIs(w + rest, |w|);
  }

  /** White space, a word, then nothing or white space: `split()` yields that word first. */
  lemma WordsAfterGap(g: string, w: string, rest: string)
    requires AllSpace(g) && IsWord(w) && (rest == [] || IsSpace(rest[0]))
    ensures Words(g + (w + rest)) == [w] + Words(rest)
  {
    var t := w + rest;
    assert t[0] == w[0];
    StripStartOfGap(g, t);
    FirstSpaceAfterWord(w, rest);
    WordsStep(g + t);
    assert t[..|w|] == w && t[|w|..] == rest;
  }

  /** What follows the first word of a cut starts with white space, or is empty. */
  lemma WordCutRest(gaps: seq<string>, ws: seq<string>, s: string)
    requires WordCut(gaps, ws, s) && ws != []
    ensures var rest := Weave(gaps[1..], ws[1..]);
            s == gaps[0] + (ws[0] + rest) && (rest == [] || IsSpace(rest[0]))
  {
    var rest := Weave(gaps[1..], ws[1..]);
    assert AllSpace(gaps[1]);
    if ws[1..] != [] {
      assert gaps[1..][0] == gaps[1] && gaps[1] != [];
      assert rest == gaps[1] + ws[1..][0] + Weave(gaps[1..][1..], ws[1..][1..]);
      assert rest[0] == gaps[1][0];
    }
  }

  /** Dropping the first gap and word of a cut leaves a cut of the rest. */
  lemma WordCutTail(gaps: seq<string>, ws: seq<string>, s: string)
    requires WordCut(gaps, ws, s) && ws != []
    ensures WordCut(gaps[1..], ws[1..], Weave(gaps[1..], ws[1..]))
  {
    assert forall i :: 0 <= i < |ws| - 1 ==> ws[1..][i] == ws[i + 1];
    assert forall i :: 0 <= i < |gaps| - 1 ==> gaps[1..][i] == gaps[i + 1];
  }

  /** `split()` is the only cutting of `s` into words with white space between them. */
  lemma {:induction false} WordCutIsWords(gaps: seq<string>, ws: seq<string>, s: string)
    requires WordCut(gaps, ws, s)
    ensures Words(s) == ws
    decreases |ws|
  {
    if ws == [] {
      assert gaps[0] + [] == gaps[0];
      StripStartOfGap(gaps[0], []);
    } else {
      var rest := Weave(gaps[1..], ws[1..]);
      WordCutRest(gaps, ws, s);
      WordCutTail(gaps, ws, s);
      WordCutIsWords(gaps[1..], ws[1..], rest);
      WordsAfterGap(gaps[0], ws[0], rest);
      HeadTail(ws);
    }
  }

  /** A cut whose first word is a word preceded by white space, joined to a cut of the rest. */
  lemma WordCutCons(g: string, w: string, gaps: seq<string>, ws: seq<string>, rest: string)
    requires AllSpace(g) && IsWord(w) && WordCut(gaps, ws, rest)
    requires ws != [] ==> gaps[0] != []
    ensures WordCut([g] + gaps, [w] + ws, g + w + rest)
  {
    var gs, vs := [g] + gaps, [w] + ws;
    assert gs[1..] == gaps && vs[1..] == ws;
    assert forall i :: 0 < i < |gs| ==> gs[i] == gaps[i - 1];
    ConsWords(w, ws);
  }

  /** A cut of text that starts with white space has a non-empty first gap, unless it has no words. */
  lemma FirstGapOfSpaced(gaps: seq<string>, ws: seq<string>, rest: string)
    requires WordCut(gaps, ws, rest) && (rest == [] || IsSpace(rest[0]))
    ensures ws != [] ==> gaps[0] != []
  {
    if ws != [] {
      assert rest == gaps[0] + (ws[0] + Weave(gaps[1..], ws[1..]));
      assert IsWord(ws[0]);
    }
  }

  /** `lstrip()` splits `s` into its leading white space and the rest. */
  lemma LeadingGap(s: string)
    ensures var t := StripStart(s);
            s == s[..|s| - |StripStart(s)|] + t && AllSpace(s[..|s| - |t|])
  {
  }

  /** The first word of a stripped, non-empty text and what follows it. */
  lemma FirstWordCut(t: string)
    requires t != [] && !IsSpace(t[0])
    ensures var k := FirstSpace(t);
            && 0 < k && t == t[..k] + t[k..] && IsWord(t[..k])
            && (t[k..] == [] || IsSpace(t[k..][0]))
  {
    FirstWordIsWord(t);
  }

  /** The first word of `s` and what follows it, once leading white space is stripped. */
  lemma WordsFirst(s: string)
    requires StripStart(s) != []
    ensures var t := StripStart(s);
            var lead, k := s[..|s| - |t|], FirstSpace(t);
            && Words(s) == [t[..k]] + Words(t[k..]) && lead + t[..k] + t[k..] == s && |t[k..]| < |s|
            && IsWord(t[..k]) && (t[k..] == [] || IsSpace(t[k..][0]))
  {
    var t := StripStart(s);
    var lead, k := s[..|s| - |t|], FirstSpace(t);
    LeadingGap(s);
    FirstWordCut(t);
    WordsStep(s);
    Associate(lead, t[..k], t[k..]);
  }

  /** A cut of what follows the first word extends to a cut of `s`. */
  lemma WordsCutStep(s: string, lead: string, w: string, rest: string, g: seq<string>)
    requires Words(s) == [w] + Words(rest) && lead + w + rest == s
    requires AllSpace(lead) && IsWord(w) && (rest == [] || IsSpace(rest[0]))
    requires WordCut(g, Words(rest), rest)
    ensures WordCut([lead] + g, Words(s), s)
  {
    FirstGapOfSpaced(g, Words(rest), rest);
    WordCutCons(lead, w, g, Words(rest), rest);
  }

  /** `split()` cuts `s` into its words with white space between them; the gaps are returned. */
  lemma {:induction false} WordsCut(s: string) returns (gaps: seq<string>)
    ensures WordCut(gaps, Words(s), s)
    decreases |s|
  {
    var t := StripStart(s);
    LeadingGap(s);
    if t == [] {
      assert s == s[..|s| - |t|];
      gaps := [s];
    } else {
      var lead, k := s[..|s| - |t|], FirstSpace(t);
      WordsFirst(s);
      var g := WordsCut(t[k..]);
      WordsCutStep(s, lead, t[..k], t[k..], g);
      gaps := [lead] + g;
    }
  }

  /** `s.split(sep)` for a one-character separator: the pieces between separators, empty ones included. */
  function SplitOn(s: string, sep: char): (ps: seq<string>)
    ensures |ps| >= 1
    ensures forall i, j :: 0 <= i < |ps| && 0 <= j < |ps[i]| ==> ps[i][j] != sep
    decreases |s|
  {
    var k := IndexOf(s, sep);
    if k == |s| then [s] else [s[..k]] + SplitOn(s[k + 1..], sep)
  }

  /** `sep.join(ps)`. */
  function JoinWith(ps: seq<string>, sep: char): string
    requires |ps| >= 1
  {
    if |ps| == 1 then ps[0] else ps[0] + [sep] + JoinWith(ps[1..], sep)
  }

  /** The number of occurrences of `c` in `s`. */
  function Count(s: string, c: char): nat
  {
    if s == [] then 0 else (if s[0] == c then 1 else 0) + Count(s[1..], c)
  }

  lemma {:induction false} CountAppend(a: string, b: string, c: char)
    ensures Count(a + b, c) == Count(a, c) + Count(b, c)
    decreases |a|
  {
    if a == [] {
      assert a + b == b;
    } else {
      assert (a + b)[0] == a[0];
      assert (a + b)[1..] == a[1..] + b;
      CountAppend(a[1..], b, c);
    }
  }

  lemma {:induction false} CountAbsent(s: string, c: char)
    requires forall i :: 0 <= i < |s| ==> s[i] != c
    ensures Count(s, c) == 0
    decreases |s|
  {
    if s != [] {
      CountAbsent(s[1..], c);
    }
  }

  /** One step of `split(sep)`: the first piece ends at the first separator. */
  lemma SplitOnStep(s: string, sep: char)
    requires IndexOf(s, sep) < |s|
    ensures var k := IndexOf(s, sep);
            SplitOn(s, sep) == [s[..k]] + SplitOn(s[k + 1..], sep)
  {
  }

  /** Joining the pieces of `split(sep)` with `sep` gives back the string. */
  lemma {:induction false} SplitOnJoin(s: string, sep: char)
    ensures JoinWith(SplitOn(s, sep), sep) == s
    decreases |s|
  {
    var k := IndexOf(s, sep);
    if k < |s| {
      var rest := s[k + 1..];
      var ps := SplitOn(s, sep);
      SplitOnStep(s, sep);
      assert ps[0] == s[..k] && ps[1..] == SplitOn(rest, sep);
      assert |ps| >= 2;
      calc {
        JoinWith(ps, sep);
        ps[0] + [sep] + JoinWith(ps[1..], sep);
        { SplitOnJoin(rest, sep); }
        s[..k] + [sep] + rest;
        { assert s == s[..k] + [sep] + rest; }
        s;
      }
    }
  }

  /** A separator at `k` adds one to the separators before and after it. */
  lemma CountAroundSep(s: string, k: nat, sep: char)
    requires k < |s| && s[k] == sep
    ensures Count(s, sep) == Count(s[..k], sep) + 1 + Count(s[k + 1..], sep)
  {
    var rest := s[k + 1..];
    assert s == s[..k] + ([sep] + rest);
    CountAppend(s[..k], [sep] + rest, sep);
    assert ([sep] + rest)[1..] == rest;
  }

  /** `split(sep)` yields one piece more than there are separators. */
  lemma {:induction false} SplitOnCount(s: string, sep: char)
    ensures |SplitOn(s, sep)| == Count(s, sep) + 1
    decreases |s|
  {
    var k := IndexOf(s, sep);
    CountAbsent(s[..k], sep);
    if k == |s| {
      assert s[..k] == s;
    } else {
      var rest := s[k + 1..];
      SplitOnStep(s, sep);
      SplitOnCount(rest, sep);
      CountAroundSep(s, k, sep);
    }
  }

  // ---------------------------------------------------------------------------
  // splitlines()

  /** A line: no line boundary inside it. */
  predicate IsLine(l: string)
  {
    forall j :: 0 <= j < |l| ==> !IsLineBreak(l[j])
  }

  /** Every item of `ls` is a line. */
  predicate AllLines(ls: seq<string>)
  {
    forall i :: 0 <= i < |ls| ==> IsLine(ls[i])
  }

  /** `s.splitlines()`: the lines between boundaries, "\r\n" being one boundary and no empty line after a final boundary. */
  function SplitLines(s: string): (lines: seq<string>)
    ensures AllLines(lines)
    ensures lines == [] <==> s == []
    decreases |s|
  {
    if s == [] then []
    else
      var k := FirstLineBreak(s);
      if k == |s| then [s]
      else
        [s[..k]] + SplitLines(s[NextLineStart(s, k)..])
  }

  /** Where the line after the first boundary of `s` starts: "\r\n" is one boundary of two characters. */
  function NextLineStart(s: string, k: nat): (next: nat)
    requires k < |s| && IsLineBreak(s[k])
    ensures k < next <= |s|
    ensures forall i :: k <= i < next ==> IsLineBreak(s[i])
  {
    if s[k] == '\r' && k + 1 < |s| && s[k + 1] == '\n' then k + 2 else k + 1
  }

  /** One step of `splitlines()`: the first line ends at the first boundary. */
  lemma SplitLinesStep(s: string)
    requires FirstLineBreak(s) < |s|
    ensures var k := FirstLineBreak(s);
            SplitLines(s) == [s[..k]] + SplitLines(s[NextLineStart(s, k)..])
  {
  }

  /** Dropping the breaks of a line, a run of breaks and a rest leaves the line and the rest's other characters. */
  lemma NonBreakAroundBoundary(line: string, brk: string, rest: string)
    requires NonBreak(line) == line && NonBreak(brk) == []
    ensures NonBreak(line + brk + rest) == line + NonBreak(rest)
  {
    NonBreakAppend(line + brk, rest);
    NonBreakAppend(line, brk);
    assert line + [] == line;
  }

  /** Cutting `s` at its first boundary: a line, the boundary, and the rest. */
  lemma CutAtBoundary(s: string, k: nat, next: nat)
    requires k <= next <= |s|
    requires forall i :: 0 <= i < k ==> !IsLineBreak(s[i])
    requires forall i :: k <= i < next ==> IsLineBreak(s[i])
    ensures s == s[..k] + s[k..next] + s[next..]
    ensures NonBreak(s[..k]) == s[..k] && NonBreak(s[k..next]) == []
  {
    var line, brk := s[..k], s[k..next];
    forall i | 0 <= i < |line| ensures !IsLineBreak(line[i]) {
      assert line[i] == s[i];
    }
    NonBreakOfLine(line);
    forall i | 0 <= i < |brk| ensures IsLineBreak(brk[i]) {
      assert brk[i] == s[k + i];
    }
    NonBreakOfBreaks(brk);
    assert s == s[..next] + s[next..];
    assert s[..next] == line + brk;
  }

  /** `splitlines()` loses nothing but line boundaries: its lines, glued together, are the other characters of `s`. */
  lemma {:induction false} SplitLinesKeepText(s: string)
    ensures Concat(SplitLines(s)) == NonBreak(s)
    decreases |s|
  {
    if s != [] {
      var k := FirstLineBreak(s);
      if k == |s| {
        NonBreakOfLine(s);
        assert SplitLines(s) == [s];
        ConcatCons(s, []);
      } else {
        var next := NextLineStart(s, k);
        var line, rest := s[..k], s[next..];
        CutAtBoundary(s, k, next);
        NonBreakAroundBoundary(line, s[k..next], rest);
        SplitLinesStep(s);
        SplitLinesKeepText(rest);
        ConcatCons(line, SplitLines(rest));
      }
    }
  }

  /** One line boundary: "\r\n", or a single boundary character. */
  predicate IsBoundary(b: string)
  {
    b == "\r\n" || (|b| == 1 && IsLineBreak(b[0]))
  }

  /** `lines[0] + ends[0] + lines[1] + ends[1] + ...`: the lines with what ended each. */
  function Interleave(lines: seq<string>, ends: seq<string>): string
    requires |lines| == |ends|
    decreases |lines|
  {
    if lines == [] then [] else lines[0] + ends[0] + Interleave(lines[1..], ends[1..])
  }

  /**
    Each line is ended by one boundary, except that the last line may run to
    the end of the text unended, when it is not empty; and a lone "\r" is
    never directly followed by "\n", since the two would be one boundary.
   */
  predicate ProperEnds(lines: seq<string>, ends: seq<string>)
    requires |lines| == |ends|
  {
    && (forall i :: 0 <= i < |ends| ==> IsBoundary(ends[i]) || (i == |ends| - 1 && ends[i] == [] && lines[i] != []))
    && (forall i :: 0 <= i < |ends| - 1 && ends[i] == "\r" && lines[i + 1] == [] ==> ends[i + 1] != "\n")
  }

  /** `lines` cuts `s` the way `splitlines()` does, `ends` being the boundaries it removed. */
  predicate LineCut(lines: seq<string>, ends: seq<string>, s: string)
  {
    && |lines| == |ends|
    && Interleave(lines, ends) == s
    && AllLines(lines)
    && ProperEnds(lines, ends)
  }

  /** The first line boundary is pinned down by its contract. */
  lemma {:induction false} FirstLineBreakIs(s: string, k: nat)
    requires k <= |s|
    requires forall i :: 0 <= i < k ==> !IsLineBreak(s[i])
    requires k < |s| ==> IsLineBreak(s[k])
    ensures FirstLineBreak(s) == k
    decreases |s|
  {
    if s != [] && !IsLineBreak(s[0]) && k > 0 {
      assert forall i :: 0 <= i < k - 1 ==> s[1..][i] == s[i + 1];
      FirstLineBreakIs(s[1..], k - 1);
    }
  }

  /** A line, a boundary and a rest that does not make a lone "\r" into "\r\n": `splitlines()` yields the line first. */
  lemma SplitLinesAtBoundary(line: string, e: string, rest: string)
    requires IsLine(line) && IsBoundary(e)
    requires e == "\r" ==> rest == [] || rest[0] != '\n'
    ensures SplitLines(line + e + rest) == [line] + SplitLines(rest)
  {
    var s := line + e + rest;
    var k := |line|;
    assert forall i :: 0 <= i < k ==> s[i] == line[i];
    assert s[k] == e[0];
    FirstLineBreakIs(s, k);
    assert k + 1 < |s| ==> s[k + 1] == (e + rest)[1];
    assert NextLineStart(s, k) == k + |e|;
    assert s[..k] == line;
    assert s[k + |e|..] == rest;
  }

  /** A text with no boundary in it is one line, or none when it is empty. */
  lemma SplitLinesOfLine(s: string)
    requires IsLine(s) && s != []
    ensures SplitLines(s) == [s]
  {
    FirstLineBreakIs(s, |s|);
  }

  /** What follows a lone "\r" in a cut does not start with "\n". */
  lemma LineCutRest(lines: seq<string>, ends: seq<string>, s: string)
    requires LineCut(lines, ends, s) && lines != []
    ensures var rest := Interleave(lines[1..], ends[1..]);
            s == lines[0] + ends[0] + rest
            && (ends[0] == "\r" ==> rest == [] || rest[0] != '\n')
  {
    var rest := Interleave(lines[1..], ends[1..]);
    if lines[1..] != [] {
      assert lines[1..][0] == lines[1] && ends[1..][0] == ends[1];
      assert rest == lines[1] + ends[1] + Interleave(lines[1..][1..], ends[1..][1..]);
      assert IsLine(lines[1]);
      assert IsBoundary(ends[1]) || lines[1] != [];
      if lines[1] != [] {
        assert rest[0] == lines[1][0];
      } else {
        assert rest[0] == ends[1][0];
      }
    }
  }

  /** Dropping the first line and its end leaves a cut of the rest. */
  lemma LineCutTail(lines: seq<string>, ends: seq<string>, s: string)
    requires LineCut(lines, ends, s) && lines != []
    ensures LineCut(lines[1..], ends[1..], Interleave(lines[1..], ends[1..]))
  {
    assert forall i :: 0 <= i < |lines| - 1 ==> lines[1..][i] == lines[i + 1];
    assert forall i :: 0 <= i < |ends| - 1 ==> ends[1..][i] == ends[i + 1];
  }

  /** `splitlines()` is the only cutting of `s` into lines and the boundaries that end them. */
  lemma {:induction false} LineCutIsSplitLines(lines: seq<string>, ends: seq<string>, s: string)
    requires LineCut(lines, ends, s)
    ensures SplitLines(s) == lines
    decreases |lines|
  {
    if lines != [] {
      var rest := Interleave(lines[1..], ends[1..]);
      LineCutRest(lines, ends, s);
      assert IsLine(lines[0]);
      if ends[0] == [] {
        assert lines[1..] == [] && ends[1..] == [];
        assert s == lines[0];
        SplitLinesOfLine(lines[0]);
      } else {
        LineCutTail(lines, ends, s);
        LineCutIsSplitLines(lines[1..], ends[1..], rest);
        SplitLinesAtBoundary(lines[0], ends[0], rest);
        HeadTail(lines);
      }
    }
  }

  /** The first line of `s`, the boundary that ends it, and the rest put back together give `s`. */
  lemma FirstLineParts(s: string, k: nat, next: nat)
    requires k <= next <= |s|
    ensures s[..k] + s[k..next] + s[next..] == s
  {
    assert s[..k] + s[k..next] == s[..next];
    Associate(s[..k], s[k..next], s[next..]);
  }

  /** The text before the first boundary is a line. */
  lemma FirstLineIsLine(s: string, k: nat)
    requires k == FirstLineBreak(s)
    ensures IsLine(s[..k])
  {
    assert forall i :: 0 <= i < k ==> s[..k][i] == s[i];
  }

  /** The first boundary is one boundary: "\r\n" or a single boundary character. */
  lemma FirstBoundary(s: string, k: nat, next: nat)
    requires k == FirstLineBreak(s) && k < |s| && next == NextLineStart(s, k)
    ensures IsBoundary(s[k..next])
  {
    if next == k + 2 {
      assert s[k..next] == [s[k], s[k + 1]];
    } else {
      assert s[k..next] == [s[k]];
    }
  }

  /** After the first boundary of `s`, when it is a lone "\r", the text does not go on with "\n". */
  lemma LoneCrFirst(s: string, k: nat, next: nat)
    requires k < |s| && IsLineBreak(s[k]) && next == NextLineStart(s, k)
    ensures s[k..next] == "\r" ==> s[next..] == [] || s[next..][0] != '\n'
  {
    if s[k..next] == "\r" {
      assert |s[k..next]| == 1;
      if next < |s| {
        assert s[next..][0] == s[k + 1];
      }
    }
  }

  /** A cut of a text that does not start with "\n" puts no "\n" directly after a lone "\r" before it. */
  lemma NoLfFirst(ls: seq<string>, es: seq<string>, rest: string)
    requires LineCut(ls, es, rest) && (rest == [] || rest[0] != '\n')
    ensures ls != [] && ls[0] == [] ==> es[0] != "\n"
  {
    if ls != [] {
      assert rest == ls[0] + es[0] + Interleave(ls[1..], es[1..]);
    }
  }

  /** A line and its boundary, followed by a cut of the rest, is a cut. */
  lemma LineCutCons(line: string, e: string, ls: seq<string>, es: seq<string>, rest: string)
    requires IsLine(line) && IsBoundary(e) && LineCut(ls, es, rest)
    requires e == "\r" && ls != [] && ls[0] == [] ==> es[0] != "\n"
    ensures LineCut([line] + ls, [e] + es, line + e + rest)
  {
    var lines, ends := [line] + ls, [e] + es;
    assert lines[1..] == ls && ends[1..] == es;
    assert forall i :: 0 < i < |lines| ==> lines[i] == ls[i - 1];
    assert forall i :: 0 < i < |ends| ==> ends[i] == es[i - 1];
  }

  /** A cut of what follows the first boundary extends to a cut of `s`. */
  lemma LinesCutStep(s: string, line: string, e: string, rest: string, es: seq<string>)
    requires SplitLines(s) == [line] + SplitLines(rest) && line + e + rest == s
    requires IsLine(line) && IsBoundary(e) && (e == "\r" ==> rest == [] || rest[0] != '\n')
    requires LineCut(SplitLines(rest), es, rest)
    ensures LineCut(SplitLines(s), [e] + es, s)
  {
    if e == "\r" {
      NoLfFirst(SplitLines(rest), es, rest);
    }
    LineCutCons(line, e, SplitLines(rest), es, rest);
  }

  /** `splitlines()` cuts `s` into lines each ended by one boundary; the boundaries are returned. */
  lemma {:induction false} SplitLinesCut(s: string) returns (ends: seq<string>)
    ensures LineCut(SplitLines(s), ends, s)
    decreases |s|
  {
    if s == [] {
      ends := [];
    } else {
      var k := FirstLineBreak(s);
      if k == |s| {
        assert s[..k] == s;
        SplitLinesOfLine(s);
        assert Interleave([s], [[]]) == s + [] + [];
        ends := [[]];
      } else {
        var next := NextLineStart(s, k);
        SplitLinesStep(s);
        FirstLineParts(s, k, next);
        FirstLineIsLine(s, k);
        FirstBoundary(s, k, next);
        LoneCrFirst(s, k, next);
        var es := SplitLinesCut(s[next..]);
        LinesCutStep(s, s[..k], s[k..next], s[next..], es);
        ends := [s[k..next]] + es;
      }
    }
  }

  // ---------------------------------------------------------------------------
  // lower(), upper(), replace(), startswith()

  function LowerChar(c: char): char
  {
    if 'A' <= c <= 'Z' then (c as int + 32) as char else c
  }

  /**
    The upper-case mapping the parser's keys can reach: ASCII letters, and
    U+017F (long s), which Python upper-cases to 'S'.
   */
  function UpperChar(c: char): char
  {
    if 'a' <= c <= 'z' then (c as int - 32) as char
    else if c == '\U{17F}' then 'S'
    else c
  }

  /** `s.lower()`, position by position. */
  function Lower(s: string): (r: string)
    ensures |r| == |s|
  {
    seq(|s|, i requires 0 <= i < |s| => LowerChar(s[i]))
  }

  /** `s.upper()`, position by position. */
  function Upper(s: string): (r: string)
    ensures |r| == |s|
  {
    seq(|s|, i requires 0 <= i < |s| => UpperChar(s[i]))
  }

  /** Upper-casing forgets case: a lower-cased, an upper-cased and the original string all upper-case alike. */
  lemma UpperForgetsCase(s: string)
    ensures Upper(Lower(s)) == Upper(s)
    ensures Upper(Upper(s)) == Upper(s)
  {
  }

  /** `s.replace(a, b)` for one-character `a` and `b`. */
  function ReplaceChar(s: string, a: char, b: char): (r: string)
    ensures |r| == |s|
    ensures a != b ==> forall i :: 0 <= i < |r| ==> r[i] != a
    ensures forall i :: 0 <= i < |s| && s[i] != a ==> r[i] == s[i]
  {
    seq(|s|, i requires 0 <= i < |s| => if s[i] == a then b else s[i])
  }

  /** `s.startswith(p)`. */
  predicate StartsWith(s: string, p: string)
  {
    |p| <= |s| && s[..|p|] == p
  }
}

=== FILE: scheduler.dfy ===
/**
  `schedule_user_job`: the scheduler's job table, one daily job per user
  under the id `user-<id>`. Scheduling removes the user's old job, builds
  the cron trigger (which rejects an hour outside 0..23 or a minute outside
  0..59 by raising), and only then adds the new job. The job itself, when
  it fires, runs `compute_snapshot` and delivers what it returns.
 */
module Scheduler {
  import opened Options
  import opened PyInt
  import opened Assets
  import opened Snapshot

  /** `f"user-{user_id}"`. */
  function JobId(user: int): (r: string)
    ensures |r| >= 6 && r[..5] == "user-"
    ensures r[5] == '-' <==> user < 0
    ensures forall i :: 6 <= i < |r| ==> '0' <= r[i] <= '9'
    ensures user >= 0 ==> '0' <= r[5] <= '9'
    ensures user > 0 ==> r[5] != '0'
    ensures user < 0 ==> |r| >= 7 && r[6] != '0'
    ensures user >= 0 ==> DigitsValue(r[5..]) == user
    ensures user < 0 ==> DigitsValue(r[6..]) == -user
  {
    var digits := IntToStr(user);
    assert ("user-" + digits)[5..] == digits;
    assert user < 0 ==> ("user-" + digits)[6..] == digits[1..];
    "user-" + digits
  }

  /** Two users never share a job id, so one user's job is never another's. */
  lemma JobIdInjective(a: int, b: int)
    requires JobId(a) == JobId(b)
    ensures a == b
  {
    assert JobId(a)[5..] == IntToStr(a);
    assert JobId(b)[5..] == IntToStr(b);
    IntToStrInjective(a, b);
  }

  /** The daily UTC time of a job's trigger. */
  datatype Time = Time(hour: int, minute: int)

  /** The scheduler's jobs by id. */
  type Jobs = map<string, Time>

  /** The range `CronTrigger(hour=…, minute=…)` accepts without raising. */
  predicate ValidTime(hour: int, minute: int)
  {
    0 <= hour <= 23 && 0 <= minute <= 59
  }

  /** The job table after a call, and whether the call raised. */
  datatype Scheduled = Scheduled(jobs: Jobs, raised: bool)

  /** The job a user has in a table, if any. */
  function UserJob(jobs: Jobs, user: int): Option<Time>
  {
    if JobId(user) in jobs then Some(jobs[JobId(user)]) else None
  }

  /**
    `schedule_user_job` as written: the old job is removed first, so when
    the trigger then rejects the time the user is left with no job at all.
   */
  function ScheduleUserJob(jobs: Jobs, user: int, hour: int, minute: int): (r: Scheduled)
    ensures r.raised <==> !ValidTime(hour, minute)
    ensures forall id :: id != JobId(user) ==> (id in r.jobs <==> id in jobs)
    ensures forall id :: id != JobId(user) && id in jobs ==> r.jobs[id] == jobs[id]
  {
    var removed := jobs - {JobId(user)};
    if !ValidTime(hour, minute) then Scheduled(removed, true)
    else Scheduled(removed[JobId(user) := Time(hour, minute)], false)
  }

  /**
    The schedule as evidently intended: the trigger is built, and the time
    checked, before the old job is touched, so a rejected time leaves the
    table as it was.
   */
  function ScheduleValidatedFirst(jobs: Jobs, user: int, hour: int, minute: int): (r: Scheduled)
    ensures r.raised <==> !ValidTime(hour, minute)
    ensures r.raised ==> r.jobs == jobs
  {
    if !ValidTime(hour, minute) then Scheduled(jobs, true)
    else Scheduled((jobs - {JobId(user)})[JobId(user) := Time(hour, minute)], false)
  }

  // ---------------------------------------------------------------------------
  // One call

  /** An accepted time becomes the user's only job; a rejected one leaves the user without a job. */
  lemma LatestWins(jobs: Jobs, user: int, hour: int, minute: int)
    ensures var r := ScheduleUserJob(jobs, user, hour, minute);
            UserJob(r.jobs, user) == (if ValidTime(hour, minute) then Some(Time(hour, minute)) else None)
  {
  }

  /** No other user's job is added, removed or moved. */
  lemma OthersUnchanged(jobs: Jobs, user: int, hour: int, minute: int, other: int)
    requires other != user
    ensures UserJob(ScheduleUserJob(jobs, user, hour, minute).jobs, other) == UserJob(jobs, other)
  {
    if JobId(other) == JobId(user) {
      JobIdInjective(other, user);
    }
  }

  /** Scheduling twice is scheduling once with the second time: the first job does not survive. */
  lemma ReplaceTwice(jobs: Jobs, user: int, h1: int, m1: int, h2: int, m2: int)
    ensures ScheduleUserJob(ScheduleUserJob(jobs, user, h1, m1).jobs, user, h2, m2)
            == ScheduleUserJob(jobs, user, h2, m2)
  {
    var once := ScheduleUserJob(jobs, user, h1, m1).jobs;
    assert once - {JobId(user)} == jobs - {JobId(user)};
  }

  /** The intended schedule agrees with `schedule_user_job` as written whenever the time is accepted. */
  lemma ValidatedFirstAgrees(jobs: Jobs, user: int, hour: int, minute: int)
    requires ValidTime(hour, minute)
    ensures ScheduleValidatedFirst(jobs, user, hour, minute) == ScheduleUserJob(jobs, user, hour, minute)
  {
  }

  /** With the time checked first, a rejected call keeps the user's old job. */
  lemma RejectedKeepsOldJob(jobs: Jobs, user: int, hour: int, minute: int)
    requires !ValidTime(hour, minute)
    ensures UserJob(ScheduleValidatedFirst(jobs, user, hour, minute).jobs, user) == UserJob(jobs, user)
  {
  }

  /** A user with a job at 18:30 who asks for 25:00 loses the 18:30 job and gets none. */
  lemma InvalidTimeDropsJob()
    ensures var before := map[JobId(7) := Time(18, 30)];
            var r := ScheduleUserJob(before, 7, 25, 0);
            r.raised && UserJob(before, 7) == Some(Time(18, 30)) && UserJob(r.jobs, 7) == None
  {
  }

  // ---------------------------------------------------------------------------
  // A run of calls against a reference: the last call for a user decides

  /** One call of `schedule_user_job`, from `/setup` or `/time`. */
  datatype Call = Call(user: int, hour: int, minute: int)

  /** The table after the calls, first to last; a call that raises ends only its own handler. */
  function Replay(jobs: Jobs, calls: seq<Call>): Jobs
    decreases |calls|
  {
    if calls == [] then jobs
    else
      var c := calls[|calls| - 1];
      ScheduleUserJob(Replay(jobs, calls[..|calls| - 1]), c.user, c.hour, c.minute).jobs
  }

  /** The same run with the time checked first. */
  function ReplayValidated(jobs: Jobs, calls: seq<Call>): Jobs
    decreases |calls|
  {
    if calls == [] then jobs
    else
      var c := calls[|calls| - 1];
      ScheduleValidatedFirst(ReplayValidated(jobs, calls[..|calls| - 1]), c.user, c.hour, c.minute).jobs
  }

  /** The last call made for a user, if any. */
  function LastCallFor(calls: seq<Call>, user: int): (r: Option<Call>)
    ensures r.Some? ==> r.value.user == user
                        && exists j :: 0 <= j < |calls| && calls[j] == r.value
                                       && forall i :: j < i < |calls| ==> calls[i].user != user
    ensures r.None? ==> forall j :: 0 <= j < |calls| ==> calls[j].user != user
    decreases |calls|
  {
    if calls == [] then None
    else if calls[|calls| - 1].user == user then Some(calls[|calls| - 1])
    else
      var prefix := calls[..|calls| - 1];
      assert forall j :: 0 <= j < |prefix| ==> prefix[j] == calls[j];
      LastCallFor(prefix, user)
  }

  /** The time of the last call for a user whose time was accepted, if any. */
  function LastValidFor(calls: seq<Call>, user: int): (r: Option<Time>)
    ensures r.Some? ==> ValidTime(r.value.hour, r.value.minute)
                        && exists j :: 0 <= j < |calls| && calls[j] == Call(user, r.value.hour, r.value.minute)
                                       && forall i :: j < i < |calls| && calls[i].user == user ==>
                                                        !ValidTime(calls[i].hour, calls[i].minute)
    ensures r.None? ==> forall j :: 0 <= j < |calls| && calls[j].user == user ==>
                                      !ValidTime(calls[j].hour, calls[j].minute)
    decreases |calls|
  {
    if calls == [] then None
    else
      var c := calls[|calls| - 1];
      var prefix := calls[..|calls| - 1];
      if c.user == user && ValidTime(c.hour, c.minute) then Some(Time(c.hour, c.minute))
      else
        assert forall j :: 0 <= j < |prefix| ==> prefix[j] == calls[j];
        LastValidFor(prefix, user)
  }

  /**
    As written, a user's job after a run is the time of the user's last
    call when that time was accepted, and no job at all when it was not;
    a user never called for keeps the job the table started with.
   */
  lemma {:induction false} ReplayAsWritten(jobs: Jobs, calls: seq<Call>, user: int)
    ensures UserJob(Replay(jobs, calls), user)
            == match LastCallFor(calls, user)
               case None => UserJob(jobs, user)
               case Some(c) => if ValidTime(c.hour, c.minute) then Some(Time(c.hour, c.minute)) else None
    decreases |calls|
  {
    if calls != [] {
      var c := calls[|calls| - 1];
      var prefix := calls[..|calls| - 1];
      ReplayAsWritten(jobs, prefix, user);
      if c.user == user {
        LatestWins(Replay(jobs, prefix), user, c.hour, c.minute);
      } else {
        OthersUnchanged(Replay(jobs, prefix), c.user, c.hour, c.minute, user);
      }
    }
  }

  /** With the time checked first, a user's job is the last accepted time asked for, else the starting job. */
  lemma {:induction false} ReplayValidatedKeepsLastValid(jobs: Jobs, calls: seq<Call>, user: int)
    ensures UserJob(ReplayValidated(jobs, calls), user)
            == match LastValidFor(calls, user)
               case None => UserJob(jobs, user)
               case Some(t) => Some(t)
    decreases |calls|
  {
    if calls != [] {
      var c := calls[|calls| - 1];
      var prefix := calls[..|calls| - 1];
      var before := ReplayValidated(jobs, prefix);
      ReplayValidatedKeepsLastValid(jobs, prefix, user);
      if ValidTime(c.hour, c.minute) {
        ValidatedFirstAgrees(before, c.user, c.hour, c.minute);
        if c.user == user {
          LatestWins(before, user, c.hour, c.minute);
        } else {
          OthersUnchanged(before, c.user, c.hour, c.minute, user);
        }
      }
    }
  }

  /** A job id other than the last call's was already in the table before that call. */
  lemma KeptFromBefore(jobs: Jobs, calls: seq<Call>, id: string)
    requires calls != [] && id in Replay(jobs, calls) && id != JobId(calls[|calls| - 1].user)
    ensures id in Replay(jobs, calls[..|calls| - 1])
  {
    var c := calls[|calls| - 1];
    var r := ScheduleUserJob(Replay(jobs, calls[..|calls| - 1]), c.user, c.hour, c.minute);
    assert id in r.jobs;
  }

  /** Starting from no jobs, every job in the table belongs to a user some call named. */
  lemma {:induction false} OnlyCalledUsers(calls: seq<Call>, id: string)
    requires id in Replay(map[], calls)
    ensures exists j :: 0 <= j < |calls| && id == JobId(calls[j].user)
    decreases |calls|
  {
    if calls != [] {
      var last := |calls| - 1;
      var prefix := calls[..last];
      if id != JobId(calls[last].user) {
        KeptFromBefore(map[], calls, id);
        OnlyCalledUsers(prefix, id);
        var j :| 0 <= j < |prefix| && id == JobId(prefix[j].user);
        assert calls[j] == prefix[j];
      } else {
        assert 0 <= last < |calls| && id == JobId(calls[last].user);
      }
    }
  }

  // ---------------------------------------------------------------------------
  // The job

  /** The caption's price note: from the cache, from Binance, or none for CoinGecko. */
  datatype Note = CacheNote | BinanceNote | NoNote

  /** What one firing of the job does: send the error text, send the screenshot, or raise. */
  datatype Delivery = SendText | SendPhoto(snap: Report, note: Note) | Crashed

  function NoteFor(src: Source): Note
  {
    match src
    case Cache => CacheNote
    case Binance => BinanceNote
    case CoinGecko => NoNote
  }

  /** The job's body, given what `compute_snapshot` ended in. */
  function Fire(r: Result): (d: Delivery)
    ensures d.SendPhoto? <==> r.Ready?
    ensures d.SendPhoto? ==> d.snap == r.snap
  {
    match r
    case NeedsSetup => SendText
    case Raised => Crashed
    case Ready(snap) => SendPhoto(snap, NoteFor(snap.source))
  }

  /**
    A firing sends the error text exactly when the user has no profile,
    raises (delivering nothing) exactly when the prices could not be had,
    and otherwise sends a four-row snapshot whose caption names the price source
    unless it was CoinGecko.
   */
  lemma FiringOutcome(profile: Option<Profile>, fetched: Outcome)
    ensures var d := Fire(SnapshotOf(profile, fetched));
            (d.SendText? <==> profile.None?)
            && (d.Crashed? <==> profile.Some? && fetched.Failed?)
            && (d.SendPhoto? ==> |d.snap.rows| == 4 && d.note == NoteFor(fetched.source)
                                 && (d.note == NoNote <==> fetched.source == CoinGecko))
  {
  }
}

=== FILE: setup_parser.dfy ===
/**
  `parse_setup`: the body of a `/setup` message, one instruction per line,
  read into four amounts and an optional daily time. Python's `float` and
  `int` are the parameters `parseReal` and `parseInt` (partial, so
  `Option`-valued); everything between the message and those two calls,
  lines, stripping, case, tokens, commas, is modelled here.
 */
module SetupParser {
  import opened Options
  import opened PyText

  /** The four amounts a setup fills: `ZRO`, `BNB`, `USDT` and the placebo `fZRO`. */
  datatype Slot = Zro | Bnb | Usdt | FZro

  /** `amounts`, one field per slot. */
  datatype Amounts = Amounts(zro: real, bnb: real, usdt: real, fzro: real)
  {
    function Get(k: Slot): real
    {
      match k
      case Zro => zro
      case Bnb => bnb
      case Usdt => usdt
      case FZro => fzro
    }

    /** `amounts[k] = v`. */
    function Set(k: Slot, v: real): (r: Amounts)
      ensures r.Get(k) == v
      ensures forall other :: other != k ==> r.Get(other) == Get(other)
    {
      match k
      case Zro => this.(zro := v)
      case Bnb => this.(bnb := v)
      case Usdt => this.(usdt := v)
      case FZro => this.(fzro := v)
    }
  }

  /** `{"ZRO": 0.0, "BNB": 0.0, "USDT": 0.0, "fZRO": 0.0}`. */
  const NoAmounts := Amounts(0.0, 0.0, 0.0, 0.0)

  /** The slot an upper-cased key names: the four keys `parse_setup` accepts, `FZRO` standing for `fZRO`. */
  function SlotOf(key: string): Option<Slot>
  {
    if key == "ZRO" then Some(Zro)
    else if key == "BNB" then Some(Bnb)
    else if key == "USDT" then Some(Usdt)
    else if key == "FZRO" then Some(FZro)
    else None
  }

  /** The slot a key names, in any case: `parts[0].upper()` looked up. */
  function SlotOfKey(word: string): Option<Slot>
  {
    SlotOf(Upper(word))
  }

  /** Keys are case-insensitive: a key, its lower-case and its upper-case spelling name the same slot. */
  lemma KeysIgnoreCase(word: string)
    ensures SlotOfKey(Lower(word)) == SlotOfKey(word) == SlotOfKey(Upper(word))
  {
    UpperForgetsCase(word);
  }

  /** Every spelling of the placebo key names the `fZRO` slot. */
  lemma PlaceboKey()
    ensures SlotOfKey("fZRO") == SlotOfKey("fzro") == SlotOfKey("FZRO") == Some(FZro)
  {
    assert Upper("fZRO") == "FZRO";
    assert Upper("fzro") == "FZRO";
    assert Upper("FZRO") == "FZRO";
  }

  /** What one line of the body does. */
  datatype Effect = SetAmount(slot: Slot, amount: real) | SetTime(hour: int, minute: int) | NoEffect

  /** A line that, stripped and lower-cased, starts with "at ": a time line. */
  predicate IsTimeLine(raw: string)
  {
    StartsWith(Lower(Strip(raw)), "at ")
  }

  /** A time line whose rest splits at one ':' into two parts `int` reads as `hour` and `minute`. */
  predicate TimeLineGives(raw: string, parseInt: string -> Option<int>, hour: int, minute: int)
  {
    IsTimeLine(raw)
    && var parts := SplitOn(Strip(Lower(Strip(raw))[2..]), ':');
       |parts| == 2 && parseInt(parts[0]) == Some(hour) && parseInt(parts[1]) == Some(minute)
  }

  /**
    What the loop body does with one raw line. A time line sets hour and
    minute together, or nothing when its rest is not exactly two
    `int`-parsable parts around one ':'; it never touches an amount. Any
    other line sets an amount when its first token names a slot and its
    second token, commas read as decimal points, is a `float`.
   */
  function LineEffect(raw: string, parseReal: string -> Option<real>, parseInt: string -> Option<int>): (e: Effect)
    ensures IsTimeLine(raw) ==> !e.SetAmount?
    ensures e.SetTime? ==> TimeLineGives(raw, parseInt, e.hour, e.minute)
    ensures IsTimeLine(raw) ==>
              var parts := SplitOn(Strip(Lower(Strip(raw))[2..]), ':');
              (e.SetTime? <==> |parts| == 2 && parseInt(parts[0]).Some? && parseInt(parts[1]).Some?)
    ensures !IsTimeLine(raw) ==>
              var words := Words(ReplaceChar(Strip(raw), ',', '.'));
              (e.SetAmount? <==> |words| >= 2 && SlotOfKey(words[0]).Some? && parseReal(words[1]).Some?)
    ensures e.SetAmount? ==>
              var words := Words(ReplaceChar(Strip(raw), ',', '.'));
              |words| >= 2 && SlotOfKey(words[0]) == Some(e.slot) && parseReal(words[1]) == Some(e.amount)
  {
    var s := Strip(raw);
    if s == [] then NoEffect
    else
      var low := Lower(s);
      if StartsWith(low, "at ") then
        // `low.replace("at", "", 1)`: the first "at" is the prefix `startswith` just matched.
        var parts := SplitOn(Strip(low[2..]), ':');
        if |parts| == 2 && parseInt(parts[0]).Some? && parseInt(parts[1]).Some? then
          SetTime(parseInt(parts[0]).value, parseInt(parts[1]).value)
        else NoEffect
      else
        var words := Words(ReplaceChar(s, ',', '.'));
        if |words| >= 2 then
          var val := parseReal(words[1]);
          if val.None? then NoEffect
          else
            match SlotOfKey(words[0])
            case Some(k) => SetAmount(k, val.value)
            case None => NoEffect
        else NoEffect
  }

  /** The loop's state: the amounts and the separately held `hour` and `minute`. */
  datatype Progress = Progress(amounts: Amounts, hour: Option<int>, minute: Option<int>)

  function Apply(st: Progress, e: Effect): Progress
  {
    match e
    case SetAmount(k, v) => st.(amounts := st.amounts.Set(k, v))
    case SetTime(h, m) => st.(hour := Some(h), minute := Some(m))
    case NoEffect => st
  }

  /** Whether `hour` and `minute` are both set or both unset. */
  predicate TimeInStep(st: Progress)
  {
    st.hour.Some? <==> st.minute.Some?
  }

  /** The loop over the lines, first to last; hour and minute stay in step because they are only ever set together. */
  function Run(st: Progress, es: seq<Effect>): (r: Progress)
    requires TimeInStep(st)
    ensures TimeInStep(r)
    ensures (forall j :: 0 <= j < |es| ==> !es[j].SetTime?) ==> r.hour == st.hour && r.minute == st.minute
    decreases |es|
  {
    if es == [] then st else Apply(Run(st, es[..|es| - 1]), es[|es| - 1])
  }

  /** The effect of every line of the body, in order. */
  function Effects(body: string, parseReal: string -> Option<real>, parseInt: string -> Option<int>): (es: seq<Effect>)
    ensures |es| == |SplitLines(body)|
  {
    var lines := SplitLines(body);
    seq(|lines|, i requires 0 <= i < |lines| => LineEffect(lines[i], parseReal, parseInt))
  }

  /** What `parse_setup` returns. */
  datatype Setup = Setup(amounts: Amounts, schedule: Option<(int, int)>)

  /** `parse_setup(body)`. */
  function ParseSetup(body: string, parseReal: string -> Option<real>, parseInt: string -> Option<int>): (r: Setup)
    ensures (forall i :: 0 <= i < |SplitLines(body)| ==> !LineEffect(SplitLines(body)[i], parseReal, parseInt).SetTime?)
            ==> r.schedule == None
  {
    var st := Run(Progress(NoAmounts, None, None), Effects(body, parseReal, parseInt));
    Setup(st.amounts, if st.hour.Some? && st.minute.Some? then Some((st.hour.value, st.minute.value)) else None)
  }

  // ---------------------------------------------------------------------------
  // Reference definitions: the last line that speaks decides

  /** The amount the last `SetAmount` for slot `k` sets, if any. */
  function LastAmount(es: seq<Effect>, k: Slot): (r: Option<real>)
    ensures r.Some? ==> exists j :: 0 <= j < |es| && es[j] == SetAmount(k, r.value)
                                   && forall i :: j < i < |es| ==> !(es[i].SetAmount? && es[i].slot == k)
    ensures r.None? ==> forall j :: 0 <= j < |es| ==> !(es[j].SetAmount? && es[j].slot == k)
    decreases |es|
  {
    if es == [] then None
    else
      var e := es[|es| - 1];
      if e.SetAmount? && e.slot == k then Some(e.amount) else LastAmount(es[..|es| - 1], k)
  }

  /** The time the last `SetTime` sets, if any. */
  function LastTime(es: seq<Effect>): (r: Option<(int, int)>)
    ensures r.Some? ==> exists j :: 0 <= j < |es| && es[j] == SetTime(r.value.0, r.value.1)
                                   && forall i :: j < i < |es| ==> !es[i].SetTime?
    ensures r.None? ==> forall j :: 0 <= j < |es| ==> !es[j].SetTime?
    decreases |es|
  {
    if es == [] then None
    else
      var e := es[|es| - 1];
      if e.SetTime? then Some((e.hour, e.minute)) else LastTime(es[..|es| - 1])
  }

  lemma {:induction false} RunAmount(st: Progress, es: seq<Effect>, k: Slot)
    requires TimeInStep(st)
    ensures Run(st, es).amounts.Get(k) == LastAmount(es, k).GetOr(st.amounts.Get(k))
    decreases |es|
  {
    if es != [] {
      RunAmount(st, es[..|es| - 1], k);
    }
  }

  lemma {:induction false} RunTime(st: Progress, es: seq<Effect>)
    requires st.hour.None? && st.minute.None?
    ensures var r := Run(st, es);
            match LastTime(es)
            case Some(t) => r.hour == Some(t.0) && r.minute == Some(t.1)
            case None => r.hour.None? && r.minute.None?
    decreases |es|
  {
    if es != [] {
      RunTime(st, es[..|es| - 1]);
    }
  }

  // ---------------------------------------------------------------------------
  // Properties of parse_setup

  /** Each amount is the one set by the last line naming its slot, and 0.0 when no line names it. */
  lemma LaterLinesOverride(body: string, parseReal: string -> Option<real>, parseInt: string -> Option<int>, k: Slot)
    ensures ParseSetup(body, parseReal, parseInt).amounts.Get(k)
            == LastAmount(Effects(body, parseReal, parseInt), k).GetOr(0.0)
  {
    RunAmount(Progress(NoAmounts, None, None), Effects(body, parseReal, parseInt), k);
  }

  /** The schedule is the time of the last time line whose two parts both parse, and there is none when no such line exists. */
  lemma LastTimeLineWins(body: string, parseReal: string -> Option<real>, parseInt: string -> Option<int>)
    ensures ParseSetup(body, parseReal, parseInt).schedule == LastTime(Effects(body, parseReal, parseInt))
  {
    RunTime(Progress(NoAmounts, None, None), Effects(body, parseReal, parseInt));
  }

  /**
    A schedule comes only from a line of the body that is a time line whose
    rest splits at one ':' into two parts `int` accepts, the hour and the
    minute of the schedule; their range is not checked.
   */
  lemma ScheduleFromTimeLine(body: string, parseReal: string -> Option<real>, parseInt: string -> Option<int>,
                             hour: int, minute: int)
    requires ParseSetup(body, parseReal, parseInt).schedule == Some((hour, minute))
    ensures exists i :: 0 <= i < |SplitLines(body)| && TimeLineGives(SplitLines(body)[i], parseInt, hour, minute)
  {
    var es := Effects(body, parseReal, parseInt);
    var lines := SplitLines(body);
    LastTimeLineWins(body, parseReal, parseInt);
    var j := LastTimeAt(es);
    assert es[j] == LineEffect(lines[j], parseReal, parseInt);
    assert TimeLineGives(lines[j], parseInt, hour, minute);
  }

  /** Where the last time was set. */
  lemma LastTimeAt(es: seq<Effect>) returns (j: nat)
    requires LastTime(es).Some?
    ensures j < |es| && es[j] == SetTime(LastTime(es).value.0, LastTime(es).value.1)
  {
    var t := LastTime(es).value;
    j :| 0 <= j < |es| && es[j] == SetTime(t.0, t.1) && forall i :: j < i < |es| ==> !es[i].SetTime?;
  }

  /** Effects that are all `NoEffect` set no amount and no time. */
  lemma NothingSet(es: seq<Effect>, k: Slot)
    requires forall j :: 0 <= j < |es| ==> es[j] == NoEffect
    ensures LastAmount(es, k) == None && LastTime(es) == None
  {
  }

  /** A body none of whose lines sets anything leaves every amount at 0.0 and yields no schedule. */
  lemma DefaultsWhenNothingParses(body: string, parseReal: string -> Option<real>, parseInt: string -> Option<int>)
    requires forall j :: 0 <= j < |Effects(body, parseReal, parseInt)| ==> Effects(body, parseReal, parseInt)[j] == NoEffect
    ensures ParseSetup(body, parseReal, parseInt) == Setup(NoAmounts, None)
  {
    var es := Effects(body, parseReal, parseInt);
    var r := ParseSetup(body, parseReal, parseInt);
    forall k: Slot
      ensures r.amounts.Get(k) == 0.0
    {
      NothingSet(es, k);
      LaterLinesOverride(body, parseReal, parseInt, k);
    }
    NothingSet(es, Zro);
    LastTimeLineWins(body, parseReal, parseInt);
    assert r.amounts.Get(Zro) == 0.0 && r.amounts.Get(Bnb) == 0.0;
    assert r.amounts.Get(Usdt) == 0.0 && r.amounts.Get(FZro) == 0.0;
  }
}

=== FILE: snapshot.dfy ===
/**
  The arithmetic of `compute_snapshot`, once the profile has been loaded and
  the prices fetched: four rows in a fixed order, each with its value and
  its change from the profile's baseline price, the total of the rounded
  values, and the value-weighted total change. All of it is exact
  arithmetic on `real`, with Python's `round(x, 2)` as `Round2`.
 */
module Snapshot {
  import opened Options
  import opened Assets
  import opened PyRound

  /**
    The stored profile: the four amounts and the baseline prices recorded
    at `/setup` (a baseline column may be empty).
   */
  datatype Profile = Profile(zro: real, bnb: real, usdt: real, fzro: real,
                             baseZro: Option<real>, baseBnb: Option<real>, baseUsdt: Option<real>)

  /** The nested `pct(now, base)`: the change from `base` to `now` in percent, rounded; 0.0 without a usable baseline. */
  function Pct(now: real, base: Option<real>): (r: real)
    ensures base.None? || base.value == 0.0 ==> r == 0.0
    ensures base.Some? && base.value != 0.0 ==>
              var exact := (now - base.value) / base.value * 100.0;
              exact - 0.005 <= r <= exact + 0.005 && (r * 100.0).Floor as real == r * 100.0
  {
    if base.None? || base.value == 0.0 then 0.0
    else Round2((now - base.value) / base.value * 100.0)
  }

  /** One tuple of `entries`: symbol, amount, price, change and 24-hour change. */
  datatype Entry = Entry(symbol: string, amount: real, price: real, change: real, h24: Option<real>)

  /**
    `entries`: ZRO, BNB, USDT, then the placebo amount priced as ZRO. The
    fourth row shares the first one's price, change and 24-hour change.
   */
  function Entries(p: Profile, prices: PriceSet): (es: seq<Entry>)
    ensures |es| == 4
    ensures es[0].symbol == "ZRO" && es[1].symbol == "BNB" && es[2].symbol == "USDT" && es[3].symbol == "ZRO"
    ensures es[0].amount == p.zro && es[1].amount == p.bnb && es[2].amount == p.usdt && es[3].amount == p.fzro
    ensures es[0].price == prices.zro.price && es[1].price == prices.bnb.price && es[2].price == prices.usdt.price
    ensures es[0].h24 == prices.zro.h24 && es[1].h24 == prices.bnb.h24 && es[2].h24 == prices.usdt.h24
    ensures es[3].price == es[0].price && es[3].change == es[0].change && es[3].h24 == es[0].h24
    ensures es[0].change == Pct(prices.zro.price, p.baseZro)
    ensures es[1].change == Pct(prices.bnb.price, p.baseBnb)
    ensures es[2].change == Pct(prices.usdt.price, p.baseUsdt)
  {
    var zroChange := Pct(prices.zro.price, p.baseZro);
    [ Entry("ZRO", p.zro, prices.zro.price, zroChange, prices.zro.h24),
      Entry("BNB", p.bnb, prices.bnb.price, Pct(prices.bnb.price, p.baseBnb), prices.bnb.h24),
      Entry("USDT", p.usdt, prices.usdt.price, Pct(prices.usdt.price, p.baseUsdt), prices.usdt.h24),
      Entry("ZRO", p.fzro, prices.zro.price, zroChange, prices.zro.h24) ]
  }

  /** `value_f`: the unrounded value of an entry, amount times price. */
  function Value(e: Entry): real
  {
    e.amount * e.price
  }

  /** A row of the snapshot, the formatted strings left as the numbers they format. */
  datatype Row = Row(symbol: string, amount: real, price: real, value: real, change: real, h24: Option<real>)

  /** The row built from an entry: value and 24-hour change rounded to cents. */
  function RowOf(e: Entry): (r: Row)
    ensures r.symbol == e.symbol && r.amount == e.amount && r.price == e.price && r.change == e.change
    ensures Value(e) - 0.005 <= r.value <= Value(e) + 0.005 && (r.value * 100.0).Floor as real == r.value * 100.0
    ensures r.h24.Some? <==> e.h24.Some?
    ensures e.h24.Some? ==> var c := r.h24.value;
                            e.h24.value - 0.005 <= c <= e.h24.value + 0.005 && (c * 100.0).Floor as real == c * 100.0
  {
    Row(e.symbol, e.amount, e.price, Round2(Value(e)), e.change,
        if e.h24.None? then None else Some(Round2(e.h24.value)))
  }

  /** The rows of a list of entries, in order. */
  function Rows(es: seq<Entry>): (rs: seq<Row>)
    ensures |rs| == |es|
    ensures forall i :: 0 <= i < |es| ==> rs[i] == RowOf(es[i])
    decreases |es|
  {
    if es == [] then [] else Rows(es[..|es| - 1]) + [RowOf(es[|es| - 1])]
  }

  /** The sum of the rounded row values: `total`. */
  function RoundedTotal(rs: seq<Row>): real
    decreases |rs|
  {
    if rs == [] then 0.0 else RoundedTotal(rs[..|rs| - 1]) + rs[|rs| - 1].value
  }

  /** One pair `(value_f, change)` of `weighted_parts`. */
  datatype Share = Share(value: real, change: real)

  /** `weighted_parts`: each entry's unrounded value with its change, in order. */
  function Shares(es: seq<Entry>): (ps: seq<Share>)
    ensures |ps| == |es|
    ensures forall i :: 0 <= i < |es| ==> ps[i] == Share(Value(es[i]), es[i].change)
    decreases |es|
  {
    if es == [] then [] else Shares(es[..|es| - 1]) + [Share(Value(es[|es| - 1]), es[|es| - 1].change)]
  }

  /** The sum of the unrounded values. */
  function ExactTotal(ps: seq<Share>): real
    decreases |ps|
  {
    if ps == [] then 0.0 else ExactTotal(ps[..|ps| - 1]) + ps[|ps| - 1].value
  }

  /** One term `v/total * c` of the weighted change. */
  function Part(p: Share, total: real): real
    requires total != 0.0
  {
    p.value / total * p.change
  }

  /** `sum(v/total * c for v, c in weighted_parts)`. */
  function WeightedChange(ps: seq<Share>, total: real): real
    requires total != 0.0
    decreases |ps|
  {
    if ps == [] then 0.0 else WeightedChange(ps[..|ps| - 1], total) + Part(ps[|ps| - 1], total)
  }

  /** Extending the pairs by one adds its term to the weighted change. */
  lemma WeightedStep(ps: seq<Share>, j: nat, total: real)
    requires j < |ps| && total != 0.0
    ensures WeightedChange(ps[..j + 1], total) == WeightedChange(ps[..j], total) + Part(ps[j], total)
  {
    assert ps[..j + 1][..j] == ps[..j];
  }

  /** A pair's value times its change. */
  function Moved(p: Share): real
  {
    p.value * p.change
  }

  /** The sum of value times change, the numerator of the weighted change. */
  function ValueTimesChange(ps: seq<Share>): real
    decreases |ps|
  {
    if ps == [] then 0.0 else ValueTimesChange(ps[..|ps| - 1]) + Moved(ps[|ps| - 1])
  }

  /** The snapshot dictionary; `total` as the number it formats. */
  datatype Report = Report(rows: seq<Row>, total: real, totalPct: real, source: Source)

  /** What `compute_snapshot` ends in: the snapshot, the "run /setup first" reply, or the exception `fetch_prices` raised. */
  datatype Result = Ready(snap: Report) | NeedsSetup | Raised

  /** `total_pct`: 0.0 unless the total is positive, else the weighted change rounded. */
  function TotalPct(es: seq<Entry>, total: real): (r: real)
    ensures total <= 0.0 ==> r == 0.0
    ensures total > 0.0 ==> var exact := ValueTimesChange(Shares(es)) / total;
                            exact - 0.005 <= r <= exact + 0.005
    ensures total > 0.0 ==> r == Round2(ValueTimesChange(Shares(es)) / total)
  {
    if total > 0.0 then
      WeightedIsRatio(Shares(es), total);
      Round2(WeightedChange(Shares(es), total))
    else 0.0
  }

  /**
    `compute_snapshot(user_id)` given the loaded profile (`None` when there is
    none) and the outcome of `fetch_prices`. The profile is checked before
    any price is fetched.
   */
  function SnapshotOf(profile: Option<Profile>, fetched: Outcome): (r: Result)
    ensures r.NeedsSetup? <==> profile.None?
    ensures r.Raised? <==> profile.Some? && fetched.Failed?
    ensures r.Ready? ==> |r.snap.rows| == 4 && r.snap.source == fetched.source
  {
    if profile.None? then NeedsSetup
    else if fetched.Failed? then Raised
    else
      var es := Entries(profile.value, fetched.prices);
      var rs := Rows(es);
      var total := RoundedTotal(rs);
      Ready(Report(rs, total, TotalPct(es, total), fetched.source))
  }

  /**
    The loop of `compute_snapshot`: a row per entry, the running total of
    the rounded values, and the pairs `(value_f, change)`.
   */
  method BuildRows(es: seq<Entry>) returns (rows: seq<Row>, total: real, parts: seq<Share>)
    ensures rows == Rows(es) && total == RoundedTotal(rows) && parts == Shares(es)
  {
    rows, total, parts := [], 0.0, [];
    var i := 0;
    while i < |es|
      invariant 0 <= i <= |es|
      invariant rows == Rows(es[..i]) && parts == Shares(es[..i])
      invariant total == RoundedTotal(rows)
    {
      var valueF := es[i].amount * es[i].price;
      var row := RowOf(es[i]);
      assert es[..i + 1][..i] == es[..i];
      assert (rows + [row])[..i] == rows;
      rows := rows + [row];
      total := total + row.value;
      parts := parts + [Share(valueF, es[i].change)];
      i := i + 1;
    }
    assert es[..i] == es;
  }

  /** The `sum(...)` over `weighted_parts`, once the total is known. */
  method SumParts(ps: seq<Share>, total: real) returns (sum: real)
    requires total != 0.0
    ensures sum == WeightedChange(ps, total)
  {
    sum := 0.0;
    var j := 0;
    while j < |ps|
      invariant 0 <= j <= |ps|
      invariant sum == WeightedChange(ps[..j], total)
    {
      WeightedStep(ps, j, total);
      sum := sum + ps[j].value / total * ps[j].change;
      j := j + 1;
    }
    assert ps[..j] == ps;
  }

  /** `compute_snapshot`, statement by statement. */
  method ComputeSnapshot(profile: Option<Profile>, fetched: Outcome) returns (r: Result)
    ensures r == SnapshotOf(profile, fetched)
  {
    if profile.None? {
      return NeedsSetup;
    }
    if fetched.Failed? {
      return Raised;
    }
    var es := Entries(profile.value, fetched.prices);
    var rows, total, parts := BuildRows(es);
    var totalPct := 0.0;
    if total > 0.0 {
      var sum := SumParts(parts, total);
      totalPct := Round2(sum);
    }
    r := Ready(Report(rows, total, totalPct, fetched.source));
  }

  // ---------------------------------------------------------------------------
  // Properties

  /** Against a positive baseline, the change has the sign of the price movement, and is 0.0 when the price has not moved. */
  lemma PctSign(now: real, base: real)
    requires base > 0.0
    ensures now >= base ==> Pct(now, Some(base)) >= 0.0
    ensures now <= base ==> Pct(now, Some(base)) <= 0.0
  {
    var x := (now - base) / base * 100.0;
    if now >= base {
      assert x >= 0.0;
      Round2Keeps(0);
      Round2Monotone(0.0, x);
    }
    if now <= base {
      assert x <= 0.0;
      Round2Keeps(0);
      Round2Monotone(x, 0.0);
    }
  }

  /** Without a baseline, or against a zero one, the change is 0.0 whatever the price. */
  lemma PctWithoutBaseline(now: real, base: Option<real>)
    requires base.None? || base == Some(0.0)
    ensures Pct(now, base) == 0.0
  {
  }

  /** Summing four rows: the total is the sum of their four values. */
  lemma RoundedTotalOfFour(rs: seq<Row>)
    requires |rs| == 4
    ensures RoundedTotal(rs) == rs[0].value + rs[1].value + rs[2].value + rs[3].value
  {
    assert rs[..3][..2] == rs[..2] && rs[..2][..1] == rs[..1] && rs[..1][..0] == [];
    assert RoundedTotal(rs[..1]) == rs[0].value;
    assert RoundedTotal(rs[..2]) == rs[0].value + rs[1].value;
    assert RoundedTotal(rs[..3]) == rs[0].value + rs[1].value + rs[2].value;
  }

  /** The total is the sum of the four rounded row values, and the weighted change is 0.0 unless that sum is positive. */
  lemma TotalOfFourRows(profile: Option<Profile>, fetched: Outcome)
    ensures var r := SnapshotOf(profile, fetched);
            r.Ready? ==>
              var rs := r.snap.rows;
              r.snap.total == rs[0].value + rs[1].value + rs[2].value + rs[3].value
              && (r.snap.total <= 0.0 ==> r.snap.totalPct == 0.0)
  {
    var r := SnapshotOf(profile, fetched);
    if r.Ready? {
      RoundedTotalOfFour(r.snap.rows);
    }
  }

  /** Each row's value is its entry's amount times price, rounded, and each row keeps its entry's symbol, amount, price and change. */
  lemma RowValues(profile: Option<Profile>, fetched: Outcome)
    ensures var r := SnapshotOf(profile, fetched);
            r.Ready? ==>
              var es := Entries(profile.value, fetched.prices);
              forall i :: 0 <= i < 4 ==>
                var row := r.snap.rows[i];
                row.value == Round2(Value(es[i]))
                && row.symbol == es[i].symbol && row.amount == es[i].amount
                && row.price == es[i].price && row.change == es[i].change
  {
    var r := SnapshotOf(profile, fetched);
    if r.Ready? {
      var es := Entries(profile.value, fetched.prices);
      var rs := Rows(es);
      assert r.snap.rows == rs;
      forall i | 0 <= i < 4
        ensures rs[i].value == Round2(Value(es[i]))
        ensures rs[i].symbol == es[i].symbol && rs[i].amount == es[i].amount
        ensures rs[i].price == es[i].price && rs[i].change == es[i].change
      {
        assert rs[i] == RowOf(es[i]);
      }
    }
  }

  /** `v / t * c` is `v * c / t`. */
  lemma ShareIsQuotient(v: real, t: real, c: real)
    requires t != 0.0
    ensures v / t * c == v * c / t
  {
  }

  /** The weighted change is the sum of value times change over the total. */
  lemma {:induction false} WeightedIsRatio(ps: seq<Share>, total: real)
    requires total != 0.0
    ensures WeightedChange(ps, total) == ValueTimesChange(ps) / total
    decreases |ps|
  {
    if ps != [] {
      var p := ps[|ps| - 1];
      WeightedIsRatio(ps[..|ps| - 1], total);
      ShareIsQuotient(p.value, total, p.change);
    }
  }

  /** A pair of non-negative value whose change lies between `lo` and `hi` moved between `lo` and `hi` times its value. */
  lemma ScaleBetween(p: Share, lo: real, hi: real)
    requires p.value >= 0.0 && lo <= p.change <= hi
    ensures lo * p.value <= Moved(p) <= hi * p.value
  {
  }

  /** Bounds add up: if `m0` is within `lo` and `hi` times `t0`, and `m` within them times `v`, so is `m0 + m` times `t0 + v`. */
  lemma StepBetween(lo: real, hi: real, t0: real, m0: real, v: real, m: real, t: real, sum: real)
    requires lo * t0 <= m0 <= hi * t0 && lo * v <= m <= hi * v
    requires t == t0 + v && sum == m0 + m
    ensures lo * t <= sum <= hi * t
  {
    assert lo * t == lo * t0 + lo * v;
    assert hi * t == hi * t0 + hi * v;
  }

  /**
    With non-negative values and every change between `lo` and `hi`, the sum
    of value times change lies between `lo` and `hi` times the sum of values.
   */
  lemma {:induction false} ValueTimesChangeBetween(ps: seq<Share>, lo: real, hi: real)
    requires forall i :: 0 <= i < |ps| ==> ps[i].value >= 0.0 && lo <= ps[i].change <= hi
    ensures lo * ExactTotal(ps) <= ValueTimesChange(ps) <= hi * ExactTotal(ps)
    decreases |ps|
  {
    if ps != [] {
      var init, p := ps[..|ps| - 1], ps[|ps| - 1];
      ValueTimesChangeBetween(init, lo, hi);
      ScaleBetween(p, lo, hi);
      StepBetween(lo, hi, ExactTotal(init), ValueTimesChange(init), p.value, Moved(p), ExactTotal(ps), ValueTimesChange(ps));
    }
  }

  /** `c * t / t` is `c`. */
  lemma Cancel(c: real, t: real)
    requires t != 0.0
    ensures c * t / t == c
  {
  }

  /**
    When rounding leaves the values alone, a portfolio whose rows all moved
    by the same `c` percent moved by `c` percent: the weighted change is `c`
    before its final rounding.
   */
  lemma UniformChangeIsPreserved(ps: seq<Share>, c: real)
    requires ExactTotal(ps) > 0.0
    requires forall i :: 0 <= i < |ps| ==> ps[i].value >= 0.0 && ps[i].change == c
    ensures WeightedChange(ps, ExactTotal(ps)) == c
  {
    var t := ExactTotal(ps);
    ValueTimesChangeBetween(ps, c, c);
    WeightedIsRatio(ps, t);
    assert ValueTimesChange(ps) == c * t;
    Cancel(c, t);
  }

  /** Summing four pairs' value times change. */
  lemma ValueTimesChangeOfFour(ps: seq<Share>)
    requires |ps| == 4
    ensures ValueTimesChange(ps) == Moved(ps[0]) + Moved(ps[1]) + Moved(ps[2]) + Moved(ps[3])
  {
    assert ps[..3][..2] == ps[..2] && ps[..2][..1] == ps[..1] && ps[..1][..0] == [];
    assert ValueTimesChange(ps[..1]) == Moved(ps[0]);
    assert ValueTimesChange(ps[..2]) == Moved(ps[0]) + Moved(ps[1]);
    assert ValueTimesChange(ps[..3]) == Moved(ps[0]) + Moved(ps[1]) + Moved(ps[2]);
  }

  /**
    10 ZRO bought at 1.0 now at 1.5 and 1 BNB bought at 500.0 now at 600.0,
    no USDT and no placebo: rows worth 15.00 and 600.00 with changes of 50 %
    and 20 %, a total of 615.00, and a weighted change of 12750/615 percent,
    20.73 once rounded.
   */
  lemma WorkedExample(p: Profile, prices: PriceSet)
    requires p == Profile(10.0, 1.0, 0.0, 0.0, Some(1.0), Some(500.0), None)
    requires prices == PriceSet(Quote(1.5, None), Quote(600.0, None), Quote(1.0, Some(0.0)))
    ensures var r := SnapshotOf(Some(p), Resolved(prices, CoinGecko));
            r.Ready? && r.snap.total == 615.0 && r.snap.totalPct == 20.73
            && r.snap.rows[0].change == 50.0 && r.snap.rows[1].change == 20.0
  {
    var es := Entries(p, prices);
    var rs := Rows(es);
    SnapshotOfProfile(p, prices, CoinGecko);
    var r := SnapshotOf(Some(p), Resolved(prices, CoinGecko));
    assert r.snap.rows == rs && r.snap.total == RoundedTotal(rs) && r.snap.totalPct == TotalPct(es, RoundedTotal(rs));
    ExampleEntries(p, prices);
    ExampleRows(es, rs);
    ExampleTotalPct(es);
  }

  /** The example's weighted change over a total of 615.00, rounded: 20.73. */
  lemma ExampleTotalPct(es: seq<Entry>)
    requires |es| == 4
    requires es[0].change == 50.0 && es[1].change == 20.0 && es[2].change == 0.0 && es[3].change == 50.0
    requires Value(es[0]) == 15.0 && Value(es[1]) == 600.0 && Value(es[2]) == 0.0 && Value(es[3]) == 0.0
    ensures TotalPct(es, 615.0) == 20.73
  {
    var ps := Shares(es);
    assert ps[0] == Share(15.0, 50.0) && ps[1] == Share(600.0, 20.0);
    assert ps[2] == Share(0.0, 0.0) && ps[3] == Share(0.0, 50.0);
    ExampleWeighted(ps);
    ExampleRounding();
  }

  /** With a profile and prices in hand, the snapshot is the rows, their total and the weighted change. */
  lemma SnapshotOfProfile(p: Profile, prices: PriceSet, src: Source)
    ensures var es := Entries(p, prices);
            var rs := Rows(es);
            SnapshotOf(Some(p), Resolved(prices, src)) == Ready(Report(rs, RoundedTotal(rs), TotalPct(es, RoundedTotal(rs)), src))
  {
  }

  /** The example's entries: their changes and unrounded values. */
  lemma ExampleEntries(p: Profile, prices: PriceSet)
    requires p == Profile(10.0, 1.0, 0.0, 0.0, Some(1.0), Some(500.0), None)
    requires prices == PriceSet(Quote(1.5, None), Quote(600.0, None), Quote(1.0, Some(0.0)))
    ensures var es := Entries(p, prices);
            es[0].change == 50.0 && es[1].change == 20.0 && es[2].change == 0.0 && es[3].change == 50.0
            && Value(es[0]) == 15.0 && Value(es[1]) == 600.0 && Value(es[2]) == 0.0 && Value(es[3]) == 0.0
  {
    ExampleRounding();
    assert (1.5 - 1.0) / 1.0 * 100.0 == 50.0;
    assert (600.0 - 500.0) / 500.0 * 100.0 == 20.0;
  }

  /** The example's rows: values 15.00, 600.00, 0.00 and 0.00, a total of 615.00, and the entries' changes. */
  lemma ExampleRows(es: seq<Entry>, rs: seq<Row>)
    requires |es| == 4 && rs == Rows(es)
    requires Value(es[0]) == 15.0 && Value(es[1]) == 600.0 && Value(es[2]) == 0.0 && Value(es[3]) == 0.0
    ensures rs[0].value == 15.0 && rs[1].value == 600.0 && rs[2].value == 0.0 && rs[3].value == 0.0
    ensures rs[0].change == es[0].change && rs[1].change == es[1].change
    ensures RoundedTotal(rs) == 615.0
  {
    ExampleRounding();
    RoundedTotalOfFour(rs);
  }

  /** The example's weighted change before rounding: 12750/615. */
  lemma ExampleWeighted(ps: seq<Share>)
    requires |ps| == 4
    requires ps[0] == Share(15.0, 50.0) && ps[1] == Share(600.0, 20.0) && ps[2] == Share(0.0, 0.0) && ps[3] == Share(0.0, 50.0)
    ensures WeightedChange(ps, 615.0) == 12750.0 / 615.0
  {
    ValueTimesChangeOfFour(ps);
    WeightedIsRatio(ps, 615.0);
  }

  /** The roundings the worked example needs. */
  lemma ExampleRounding()
    ensures Round2(15.0) == 15.0 && Round2(600.0) == 600.0 && Round2(0.0) == 0.0
    ensures Round2(50.0) == 50.0 && Round2(20.0) == 20.0
    ensures Round2(12750.0 / 615.0) == 20.73
  {
    Round2Keeps(1500);
    Round2Keeps(60000);
    Round2Keeps(0);
    Round2Keeps(5000);
    Round2Keeps(2000);
    assert (12750.0 / 615.0 * 100.0).Floor == 2073;
  }
}
